=== FILE: README.md ===
# Green-shift backend: the identity layer and record rules, in Dafny

This project models the logic of the Green-shift marketplace backend that
decides who a request is from and which records it may create. Buyers
(`User`) and farmers (`Farmer`) live in two separate document stores. The
model covers:

- **Buyer registration** (`registerUser`). The e-mail and phone normaliser:
  digits-only phone of exactly 11 digits; trimmed, lower-cased e-mail
  checked against the address pattern. Also the `$or` duplicate lookup it
  builds, and the new buyer document.
- **Login** (`authUserOrFarmer`). The credential is classified by `@`. The
  buyer store is searched first, then the farmer store. Every failure gives
  the same 401.
- **Profile endpoints** (`getUserProfile`, `updateUserProfile`). The update
  uses the "truthy value wins" merge.
- **The `protect` middleware**. It reads the bearer token, verifies it, and
  resolves the identity in the buyer store and then the farmer store.
- **The role gates** `farmerOnly` and `userOnly`.
- **Farmer controllers**:
  - `registerFarmer`, with a duplicate check on e-mail only;
  - `postProduct`, with the ownership check and the `"<n> days"` bid period;
  - `getAllProducts` and `getFarmerProducts`.
- **The farmer schema**. Its casts, `required` checks and `isFarmer`
  default; the password pre-save hook; and `matchPassword`.
- **The product migration script**. Each product is rewritten on its own.
- **The pre-listed product schema**. Required fields, `price >= 0`, the
  `status` enum and its default, and the end-after-start validator.

Stores are sequences of immutable records in natural order, and a
`findOne` is the first match. Request bodies are JavaScript values (`Js`):
`undefined`, `null`, string, integer or boolean, with truthiness written
out. Foreign libraries are parameters:

- bcrypt is a `Crypto(hash, compare)` value. The main assumption about it
  is `Sound`: a password matches its own hash. `RegisterFarmerKeepsStoreValid`
  also assumes that no hash is the empty string.
- jsonwebtoken is a `Jwt(sign, verify)` value. `Consistent` assumes three
  things of a token issued for an identifier: it is non-empty, it has no
  space, and it verifies back to that identifier.
- The store's reading of `{email: undefined}` and of an empty `$or` is a
  `QuerySemantics` value. The model states what follows from each choice
  and does not pick one.

Dates are whole days. The current day is the parameter `now`.

Modules, one file each:

- Shared pieces:
  - `Basics`: `Option` and first-match search.
  - `JsStrings`: `trim`, `toLowerCase`, `replace(/\D/g, "")`, `split`,
    `String(n)` and `parseInt`.
  - `JsValues`: truthiness and the schema casts.
  - `Records`: the documents and `findById`.
  - `Crypto` and `Session`: the hashing and token libraries.
  - `EmailPattern`: the address regular expression.
- One module per endpoint group: `Registration`, `Login`,
  `AuthMiddleware`, `Profile`, `FarmerModel`, `FarmerControllers`,
  `Migration` and `PreList`.
- `Flows` relates them along a request path.

The model follows the code as written, notably:

- `registerFarmer` checks duplicates by e-mail only. It does not look at
  the phone.
- The hashing library's `compare` throws when the entered password is not a
  string. So, when some account holds the credential, a login with a
  numeric password is forwarded to the error handler rather than answered
  with 401. With an unknown credential it is 401, as for any other
  password.
- The farmer pre-save hook re-hashes on every save (see Findings).

## Model

| member | source | states |
|---|---|---|
| JsStrings.DigitsOnly | controllers/userControllers.js:81 | the result is all digits, no longer than the input, and made of the input's characters |
| JsStrings.DigitsOnlyConcat | controllers/userControllers.js:81 | removing non-digits from a concatenation concatenates the digits of each part, so the order of the digits is kept |
| JsStrings.DigitsOnlyFixpoint | controllers/userControllers.js:81 | removing non-digits leaves a string unchanged exactly when it is all digits, so a cleaned phone cleans to itself |
| JsStrings.TrimEmptyIffBlank | controllers/userControllers.js:91 | `trim()` gives the empty string exactly when every character is whitespace |
| JsStrings.JoinSplit | middleware/authMiddleware.js:11 | `split(sep)` and `join(sep)` are inverse: joining the pieces gives back the string |
| JsStrings.SplitPrefix | middleware/authMiddleware.js:11 | splitting `a + sep + b` with no `sep` in `a` gives `a` as the first piece, followed by the pieces of `b` |
| JsStrings.ParseIntOfIntToString | controllers/farmerControllers.js:78 | `parseInt` reads back the decimal string of any integer, negative ones included |
| JsValues.CastString | models/farmerModel.js:5-8 | the `String` cast leaves `undefined` and `null` unset, keeps strings, prints a number as a decimal that `parseInt` reads back as that number, prints a boolean as `"true"` or `"false"`, and turns every truthy value into a non-empty string |
| JsValues.CastBool | models/farmerModel.js:34-38 | the `Boolean` cast leaves `undefined` and `null` unset, gives true exactly for `true`, `1`, `"true"`, `"1"` and `"yes"`, and false exactly for `false`, `0`, `"false"`, `"0"` and `"no"`; every other value fails the cast |
| Crypto.Compare | models/farmerModel.js:52-54 | the library's compare fails exactly on a non-string plaintext, and otherwise answers `compare(entered, stored)` |
| Records.BuyerById | middleware/authMiddleware.js:17 | `findById` returns a stored buyer with the identifier, and finds none exactly when no buyer has it |
| Records.FarmerById | middleware/authMiddleware.js:21 | `findById` returns a stored farmer with the identifier, and finds none exactly when no farmer has it |
| Records.BuyerByIdFinds | middleware/authMiddleware.js:17 | with unique identifiers, `findById` finds each stored buyer by its own identifier |
| Records.FarmerByIdFinds | middleware/authMiddleware.js:21 | with unique identifiers, `findById` finds each stored farmer by its own identifier |
| EmailPattern.IsEmailIffMatchesPattern | controllers/userControllers.js:89 | the character scan accepts exactly the strings the regular expression matches: a local part, `@`, domain characters, a last `.`, and at least two letters |
| EmailPattern.EmailEnds | controllers/userControllers.js:89 | an accepted address has at least six characters, starts with a local-part character and ends with a letter, so trimming cannot change it |
| EmailPattern.EmailContainsAt | controllers/userControllers.js:89 | every accepted address contains `@`, so the login classifies it as an e-mail |
| Registration.CleanPhone | controllers/userControllers.js:78-86 | a truthy non-string phone throws; a non-empty string phone is refused exactly when it has other than 11 digits; otherwise the cleaned phone is its 11 digits, present exactly when the phone was truthy |
| Registration.CleanEmail | controllers/userControllers.js:90-91 | a blank string becomes `null`; `undefined` or `null` stays `undefined`; any other string becomes the non-empty, trimmed, lower-cased string, with no upper-case letter (the Kelvin sign included) and no whitespace at either end |
| Registration.KelvinSignAddress | controllers/userControllers.js:90-95 | an address written with U+212A KELVIN SIGN is accepted, because `toLowerCase` turns it into `k`, and is stored with `k` |
| Registration.LoweredAddressIsAccepted | controllers/userControllers.js:90-95 | any string whose lower-case form is an address the pattern accepts is accepted as that address |
| Registration.CheckEmail | controllers/userControllers.js:88-95 | a number or boolean throws; the result is 400 exactly when a non-blank string does not match the pattern once cleaned; an accepted address matches the pattern |
| Registration.Normalize | controllers/userControllers.js:72-95 | 400 "no contact" exactly when both are falsy; 400 "bad phone" exactly when a contact is truthy and the phone string does not have 11 digits; 400 "bad e-mail" exactly when the phone step passes and a non-blank string e-mail, once cleaned, is outside the pattern; a TypeError exactly when a truthy phone is not a string, or the phone step passes and the e-mail is a number or boolean; a cleaned e-mail is `undefined`, `null` or a string; the cleaned values relate to the inputs as the two steps say |
| Registration.NormalizeIdempotent | controllers/userControllers.js:72-95 | normalising a cleaned address and phone again gives them back unchanged |
| Registration.Conditions | controllers/userControllers.js:99-105 | the e-mail condition is present exactly when the cleaned e-mail is neither `null` nor empty, so it is kept when the e-mail is `undefined`; the phone condition is present when there is a cleaned phone; there are no other conditions |
| Registration.RegisterUser | controllers/userControllers.js:68-151 | 400 exactly when the normaliser refuses, with its reason; a TypeError exactly when it throws. 409 exactly when the input is clean and some stored buyer matches a condition, by e-mail or by phone. 500 exactly when the store rejects an empty `$or`, or nothing matches and the password is missing or empty. Otherwise exactly one buyer is added, carrying the cleaned contacts and the hashed password; every other outcome leaves the store unchanged |
| Registration.RegisterClean | controllers/userControllers.js:97-150 | after cleaning: 409 exactly when a stored buyer matches a condition; a new buyer exactly when the lookup is accepted, nothing matches and the password is present and non-empty, carrying the cleaned contacts and the hashed password; otherwise 500 with the store unchanged |
| Registration.DuplicateEmailConflicts | controllers/userControllers.js:107-114 | once the request normalises to an address that a stored buyer holds, the outcome is 409, whatever else the request holds |
| Registration.DuplicatePhoneConflicts | controllers/userControllers.js:103-114 | once the request normalises to a phone that a stored buyer holds, the outcome is 409, whatever address the request holds |
| Registration.PhoneOnlyRegistrationDependsOnStore | controllers/userControllers.js:99-109 | a phone-only request builds an `undefined` e-mail condition, so it collides with a phone-only buyer holding another phone under one store reading and registers under another |
| Registration.BlankEmailBuildsNoCondition | controllers/userControllers.js:73-109 | any all-whitespace e-mail with no phone passes the contact guard but builds an empty `$or`, so the outcome is 500 or a registration depending on the store |
| Login.Login | controllers/userControllers.js:9-64 | 400 with no lookup exactly when the credential or password is falsy. A buyer login is the buyer store's match whose hash accepts the password, with a token for its identifier and only the buyer store consulted. A farmer login reports `isFarmer` true and consulted both stores. A 401 consulted both stores. A truthy non-string credential throws. With a string credential and a truthy non-string password, the library's compare throws exactly when some buyer or farmer holds the credential, and otherwise the answer is 401 |
| Login.LoginResolution | controllers/userControllers.js:24-62 | for string inputs: a buyer login exactly when the first buyer holding the credential accepts the password; a farmer login exactly when that fails and the first farmer holding it accepts; the single 401 otherwise |
| Login.BuyerLookupIsFirst | controllers/userControllers.js:24-28 | the e-mail or phone lookup accepts exactly when the first buyer holding the credential verbatim accepts the password |
| Login.FarmerLookupIsFirst | controllers/userControllers.js:42-46 | the farmer lookup accepts exactly when the first farmer holding the credential verbatim accepts the password |
| Login.BuyerTakesPrecedence | controllers/userControllers.js:28-39 | once a buyer login succeeds, the result is the same whatever the farmer store holds |
| Login.LoginFindsNewBuyer | controllers/userControllers.js:24-39 | a buyer appended with an address no earlier buyer held logs in with that address and its password |
| Login.RegisteredEmailIsNew | controllers/userControllers.js:99-128 | an address that registration stored contains `@`, and no buyer held it before |
| Login.RegisterThenLogin | controllers/userControllers.js:24-39 | a buyer who has just registered with an address logs in with it and the same password, and gets a token for the new identifier |
| AuthMiddleware.BearerToken | middleware/authMiddleware.js:11 | a segment exists exactly when the header has a space, and it is the text between the first space and the next space or the end of the header |
| AuthMiddleware.PresentedToken | middleware/authMiddleware.js:11-14 | the token handed to the verifier is a non-empty segment with no space; a missing or empty segment is none |
| AuthMiddleware.Protect | middleware/authMiddleware.js:5-37 | 401 "no token" exactly when there is no header starting with `Bearer`. A missing token or a rejected one gives 401 "invalid token", and so does any error in the buyer lookup. An attached identity is the verified identifier's buyer, or else its farmer. Conversely, with working lookups, a verified identifier held by a buyer attaches that buyer, and one held only by a farmer attaches that farmer. 404 only when no lookup failed |
| AuthMiddleware.IdentityGoneIff | middleware/authMiddleware.js:17-26 | with working lookups, a verified token gives 404 exactly when its claim names no identifier or one in neither store |
| AuthMiddleware.TokenResolvesToIdentity | middleware/authMiddleware.js:8-29 | a token issued for a stored buyer or farmer attaches that identity, when identifiers are unique within and across the stores |
| AuthMiddleware.FarmerOnly | middleware/authMiddleware.js:39-45 | passes exactly when a user is attached and its `isFarmer` is truthy |
| AuthMiddleware.UserOnly | middleware/authMiddleware.js:47-53 | passes exactly when a user is attached and its `isFarmer` is falsy |
| AuthMiddleware.GatesPartition | middleware/authMiddleware.js:39-53 | no request passes both gates; with no user both reject; with a user exactly one passes |
| Profile.GetUserProfile | controllers/userControllers.js:163-175 | 400 exactly when no user is attached; otherwise the attached identity's identifier, contacts and role flag |
| Profile.Merge | controllers/userControllers.js:183-191 | each of the names, phone and e-mail takes the request's value exactly when it is truthy; the password changes only for a truthy one, to its hash; the identifier and role flag are kept |
| Profile.UpdateUserProfile | controllers/userControllers.js:180-206 | 404 with the store unchanged exactly when no buyer has the identifier; otherwise that buyer is replaced in place by the merge, and nothing else changes |
| Profile.EmptyPatchIsNoOp | controllers/userControllers.js:184-191 | a request with no truthy field leaves the store as it was |
| Profile.UpdateIdempotent | controllers/userControllers.js:180-206 | sending the same password-free update twice changes nothing further |
| JsValues.RequiredString | models/farmerModel.js:5-33 | a required `String` field holds a value exactly when it is a non-empty string, a number or a boolean; the value is its non-empty cast |
| FarmerModel.RoleFlag | models/farmerModel.js:34-38 | an omitted flag defaults to true; `null` or an uncastable value fails; any other value is its cast |
| FarmerModel.BuildFarmer | models/farmerModel.js:4-41 | a document is built exactly when every required field passes; it is well formed and every field holds the cast of the value sent: the phone, e-mail, password and four business fields, with `isFarmer` as its role-flag cast (so `false` is stored as false) |
| FarmerModel.PreSaveAsWritten | models/farmerModel.js:43-50 | the hook as written replaces the password by its hash on every save, and changes nothing else |
| FarmerModel.PreSave | models/farmerModel.js:43-50 | the corrected hook hashes a modified password and leaves an unmodified document unchanged |
| FarmerModel.MatchPassword | models/farmerModel.js:52-54 | `matchPassword` is the library's compare of the entered value with the stored hash, and fails only on a non-string |
| FarmerModel.NewFarmerMatchesPlainPassword | models/farmerModel.js:43-54 | on creation both hooks hash once, and the plain password then matches |
| FarmerModel.SaveAll | models/farmerModel.js:43-50 | a sequence of saves through the corrected hook changes nothing but the password |
| FarmerModel.LastSet | models/farmerModel.js:43-50 | the position of the last save that set the password, after which every save leaves it alone; none exactly when no save set it |
| FarmerModel.SavesKeepLastPassword | models/farmerModel.js:43-54 | with the corrected hook, after any mix of password changes and untouched saves, the stored value is the hash of the password set last, which matches; with no change the document is as it was |
| FarmerModel.PreSaveAsWrittenLocksOut | models/farmerModel.js:43-50 | with the hook as written, one save that does not touch the password makes the registered password stop matching |
| FarmerControllers.RegisterFarmer | controllers/farmerControllers.js:9-56 | 400 "exists" exactly when a stored farmer matches the e-mail query. A new farmer is appended exactly when none matches and the document builds; its password is hashed and the response leaves the password out. Every other outcome leaves the store unchanged |
| FarmerControllers.RegisterFarmerKeepsStoreValid | controllers/farmerControllers.js:22-38 | registration keeps the farmer store valid: well-formed documents, unique identifiers, unique e-mails |
| FarmerControllers.SamePhoneRegistersTwice | controllers/farmerControllers.js:22-26 | the phone number plays no part in the duplicate check |
| FarmerControllers.ValueAndUnit | controllers/farmerControllers.js:75 | with no space the value is the whole period and there is no unit; otherwise the value is the text before the first space and the unit the text between it and the next space or the end |
| FarmerControllers.BidEndDate | controllers/farmerControllers.js:72-81 | no date exactly for a non-string period. A string whose unit is not `days` gives today. A `days` period gives today plus the `parseInt` value when in range, and otherwise an invalid date |
| FarmerControllers.BidPeriodInDays | controllers/farmerControllers.js:72-81 | `"<n> days"` ends the bid exactly `n` days from today, for every `n` that keeps the date in range |
| FarmerControllers.PostProduct | controllers/farmerControllers.js:62-109 | 401 with no product created exactly when the requester is not a stored farmer. Otherwise exactly one product is appended, owned by the requester, carrying the request fields and the derived end date |
| FarmerControllers.Summaries | controllers/farmerControllers.js:115 | the listing selects, for each product in order, its identifier, produce type, location, quantity, bid price and bid period |
| FarmerControllers.GetAllProducts | controllers/farmerControllers.js:114-123 | 404 exactly when there is no product; otherwise every product's summary |
| FarmerControllers.OwnedBy | controllers/farmerControllers.js:136 | the owner filter holds exactly the stored products of that farmer |
| FarmerControllers.OwnedByAppend | controllers/farmerControllers.js:136 | the owner filter keeps store order: appending a product appends it to its owner's list only |
| FarmerControllers.GetFarmerProducts | controllers/farmerControllers.js:128-144 | 401 exactly when the requester is not a stored farmer; 404 exactly when it owns no product; otherwise the summaries of exactly its products |
| FarmerControllers.PostedProductIsListed | controllers/farmerControllers.js:128-144 | a product just posted is the last item of its farmer's listing, and the full listing is not empty |
| Migration.Migrate | migrateProducts.js:18-35 | a truthy bid price becomes the price. The name is kept if truthy, else the produce type if truthy, else "Unknown Product". Description, bulk price and image path get their defaults when falsy. The bid fields and produce type are removed, and nothing else changes |
| Migration.MigrateIdempotent | migrateProducts.js:18-35 | migrating a migrated product changes nothing |
| Migration.MigrateAll | migrateProducts.js:16-38 | every product is rewritten independently, and the store keeps its size and order |
| Migration.MigrateAllAppend | migrateProducts.js:16-38 | migrating a larger store migrates the old products exactly as before |
| Migration.MigrateAllIdempotent | migrateProducts.js:16-38 | running the whole migration twice leaves what one run left |
| PreList.StatusOf | models/preListProductSchema.js:25-29 | exactly `pending`, `approved` and `rejected` are allowed |
| PreList.Violations | models/preListProductSchema.js:3-48 | the reported violations are exactly the checks the document fails; a `null` start date compares as the epoch in the end-date check |
| PreList.CreatePreList | models/preListProductSchema.js:3-57 | refused exactly when some check fails, reporting all of them. A stored document has a non-negative price, an end after the start, every required field as sent, status `pending` when left out, `null` when sent as `null`, and both timestamps set to today |
| PreList.StoredIff | models/preListProductSchema.js:3-57 | stored exactly when the required fields are set, the price is at least 0, a given status is allowed, and the harvest ends strictly after it starts |
| PreList.NullStartComparesAsEpoch | models/preListProductSchema.js:30-43 | a `null` start date fails `required`, and the end-date check then fails exactly for an end date on or before the epoch |
| PreList.NullStatusIsNotDefaulted | models/preListProductSchema.js:25-29 | a `null` status passes the `enum` check and is stored as `null`, not as `pending` |
| Flows.LoginThenProtect | middleware/authMiddleware.js:8-29 | the token a login returns, sent back as a bearer token, attaches the identity that logged in |
| Flows.FarmerRegisterThenLogin | controllers/userControllers.js:42-58 | a farmer registered with an address no buyer holds logs in with it and its password, as a farmer |
| Flows.SelfDeclaredFarmerCannotPost | controllers/farmerControllers.js:65-70 | a buyer with a truthy `isFarmer` passes `farmerOnly`, but `postProduct` answers 401 and creates nothing |
| Flows.NonFarmerFlagCannotUpdateProfile | controllers/userControllers.js:181-205 | a farmer whose flag is false passes `userOnly`, but the profile update answers 404 and changes nothing |

## Left out

- Express wiring, routes, CORS, static files, multer uploads and `asyncHandler`: plumbing with no decisions in it.
- `server.js`, database connection and close in the migration script, and `console` logging.
- The buyer schema (`models/userModel.js`) is not part of this model. The
  model assumes four things about it:
  - the password is cast to a string and required, so `undefined`, `null`
    and `""` are refused;
  - the password is hashed once when the document is created or changed;
  - `matchPassword` is the library's compare;
  - `isFarmer` is stored as sent.
- `generateToken` is not part of this model. It is the `sign` operation of the token library.
- Registration.RegisterUser: the 201 response also carries `token: generateToken(user._id)`. The model does not carry that token in the registration outcome, because it would be the token library's `sign` of the new identifier and nothing in registration depends on it. `Login` does model the token.
- bcrypt salting and cost factor: `hash` is one deterministic function. Two hashes of one password are therefore equal here, which the real library does not promise.
- Token expiry and signature checking are inside `verify`.
- The product schema (`models/productSchema.js`): its casts and `required` checks are not modelled, so creating a product always succeeds.
- The real reading of `{email: undefined}` and of `$or: []`: the model keeps both open as `QuerySemantics`.
- Calendar arithmetic: dates are whole days, with no time of day or time zone. `setDate` month rollover is plain addition of days.
- Date range: a date more than 100,000,000 days from the epoch is invalid, as in JavaScript. Numbers are integers only, with no fractions or floating point.
- The unique index on farmer e-mail as a database error. Two concurrent registrations can both pass the `findOne` check, and that race is not modelled.
- The `else` branches after `create` (the result is never empty when no error is thrown) are unreachable and not modelled.
- The `timestamps` option on the farmer schema adds `createdAt` and `updatedAt`, which are not modelled.
- The status the error handler gives a thrown error (`Threw`, `LoginThrew`, `CreateFailed`) is outside this model.
- The migration's `save`: the model shows the rewrite of each product. It does not show the database rejecting a save, the loop stopping at the first failed save, or which fields the mapper's strict mode keeps.
- Concurrency: the read-modify-write of `updateUserProfile` and the pre-save hook's call to `next()` racing the hashing.
- The logout endpoint only answers 200 and decides nothing.
- There is no cart code, so there is no cart model.
- Profile.UpdateIdempotent: stated only for updates without a password, because a real salted hash differs on each save.
- JsStrings.Lower: only the case mappings that produce an ASCII letter are modelled: `A`-`Z` and U+212A KELVIN SIGN. Other characters, such as `É`, keep their case. Every such lower-case form keeps at least one character outside the address pattern's ASCII classes; for example, `İ` becomes `i` followed by U+0307. So registration accepts and refuses the same addresses as JavaScript, and stores the same text for every address it accepts.
- Registration.CleanEmail: for a refused address that holds a non-ASCII capital, the cleaned text keeps that capital where JavaScript lower-cases it. The text is never stored or returned. See `JsStrings.Lower`.
- PreList: a `null` in a field that only `required` inspects is read as left out, which `required` refuses alike. A `null` end date fails `required`, so the end-date check does not run on it. Only the status and the start date keep `null` apart.
- Request fields hold only a string, an integer, a boolean, `null`, or nothing. The server also parses JSON and extended URL-encoded bodies, which can carry an object or an array, and those are not modelled. Examples: an operator object as the e-mail in the farmer duplicate lookup; an array phone or e-mail in buyer registration, where `replace` or `trim` would throw; an array credential in login, where `includes('@')` does not throw.
- The mapper removes a field that is set to `undefined`. The model shows such a field as holding `Undefined`.

## Findings

| source | as written | input that shows it | evidently intended | confidence | as-written member | corrected member |
|---|---|---|---|---|---|---|
| models/farmerModel.js:43-50 | when the password is not modified the hook calls `next()` without returning, then hashes the stored hash again | register a farmer with password `pw`, then save it again without touching the password: the stored value becomes the hash of the hash, and `pw` no longer matches | hash only a modified password, so a re-save keeps the password working | high (not executed) | FarmerModel.PreSaveAsWrittenLocksOut | FarmerModel.SavesKeepLastPassword |

=== FILE: auth_middleware.dfy ===
/** The authentication middleware (`protect`) and the two role gates that
    follow it on private routes. */
module AuthMiddleware {
  import opened Basics
  import opened JsStrings
  import opened Records
  import opened Session

  /** Whether each store lookup fails with an error (a lost connection, say)
      on this request. */
  datatype LookupFaults = LookupFaults(buyerLookupThrows: bool, farmerLookupThrows: bool)

  /** Outcomes: 401 "no token", 401 "invalid token", 404 "not found", or the
      resolved identity attached as `req.user` and `next` called once. */
  datatype AuthOutcome = NoToken | InvalidToken | IdentityGone | Attached(user: Identity)
  {
    predicate CallsNext() {
      Attached?
    }

    function Status(): int
      requires !Attached?
    {
      match this
      case NoToken => 401
      case InvalidToken => 401
      case IdentityGone => 404
    }
  }

  /** `authorization.split(' ')[1]`: the second space-separated segment, if any. */
  function BearerToken(header: string): (r: Option<string>)
    ensures r.Some? <==> ' ' in header
    ensures r.Some? ==> ' ' !in r.value
    ensures r.Some? ==> exists a, b :: SecondSegment(header, a, r.value, b)
  {
    var pieces := Split(header, ' ');
    SplitManyIff(header, ' ');
    if |pieces| >= 2 then
      SecondPieceIsSecondSegment(header);
      Some(pieces[1])
    else None
  }

  /** The token `protect` hands to the verifier: a missing or empty segment
      makes the verifier throw before checking anything. */
  function PresentedToken(header: string): (r: Option<string>)
    ensures r.Some? ==> r.value != "" && ' ' !in r.value && BearerToken(header) == r
    ensures r.None? <==> BearerToken(header).None? || BearerToken(header) == Some("")
  {
    match BearerToken(header)
    case None => None
    case Some(t) => if t == "" then None else Some(t)
  }

  /** `protect`: check the scheme, verify the token, then resolve its
      identifier in the buyer store and, failing that, in the farmer store.
      Every error after the scheme check reads as an invalid token. */
  function Protect(header: Option<string>, j: Jwt, buyers: seq<Buyer>, farmers: seq<Farmer>, faults: LookupFaults): (r: AuthOutcome)
    ensures r == NoToken <==> header.None? || !StartsWith(header.value, "Bearer")
    ensures r.Attached? ==>
      && PresentedToken(header.value).Some?
      && j.verify(PresentedToken(header.value).value) == Decoded(IdClaim(r.user.Id()))
    ensures r.Attached? && r.user.AsBuyer? ==> BuyerById(buyers, r.user.Id()) == Some(r.user.buyer)
    ensures r.Attached? && r.user.AsFarmer? ==>
      BuyerById(buyers, r.user.Id()).None? && FarmerById(farmers, r.user.Id()) == Some(r.user.farmer)
    ensures r == IdentityGone ==> !faults.buyerLookupThrows && !faults.farmerLookupThrows
    ensures header.Some? && StartsWith(header.value, "Bearer") ==>
      (PresentedToken(header.value).None? || j.verify(PresentedToken(header.value).value).Rejected? ==> r == InvalidToken)
    ensures faults.buyerLookupThrows ==> r == NoToken || r == InvalidToken
    ensures faults.farmerLookupThrows && r.Attached? ==> r.user.AsBuyer?
    ensures header.Some? && StartsWith(header.value, "Bearer") && PresentedToken(header.value).Some?
            && j.verify(PresentedToken(header.value).value).Decoded?
            && j.verify(PresentedToken(header.value).value).claim.IdClaim? && !faults.buyerLookupThrows ==>
            var x := j.verify(PresentedToken(header.value).value).claim.id;
            BuyerById(buyers, x).Some? ==> r == Attached(AsBuyer(BuyerById(buyers, x).value))
    ensures header.Some? && StartsWith(header.value, "Bearer") && PresentedToken(header.value).Some?
            && j.verify(PresentedToken(header.value).value).Decoded?
            && j.verify(PresentedToken(header.value).value).claim.IdClaim?
            && !faults.buyerLookupThrows && !faults.farmerLookupThrows ==>
            var x := j.verify(PresentedToken(header.value).value).claim.id;
            BuyerById(buyers, x).None? && FarmerById(farmers, x).Some? ==>
            r == Attached(AsFarmer(FarmerById(farmers, x).value))
  {
    if header.None? || !StartsWith(header.value, "Bearer") then NoToken
    else match PresentedToken(header.value)
      case None => InvalidToken
      case Some(token) =>
        match j.verify(token)
        case Rejected => InvalidToken
        case Decoded(claim) =>
          if claim.MalformedClaim? || faults.buyerLookupThrows then InvalidToken
          else
            var buyer := if claim.IdClaim? then BuyerById(buyers, claim.id) else None;
            if buyer.Some? then Attached(AsBuyer(buyer.value))
            else if faults.farmerLookupThrows then InvalidToken
            else
              var farmer := if claim.IdClaim? then FarmerById(farmers, claim.id) else None;
              if farmer.Some? then Attached(AsFarmer(farmer.value)) else IdentityGone
  }

  /** The identifier a verified token names is in neither store, exactly
      when `protect` answers 404 on a request whose lookups do not fail. */
  lemma IdentityGoneIff(header: string, j: Jwt, buyers: seq<Buyer>, farmers: seq<Farmer>)
    requires StartsWith(header, "Bearer")
    requires PresentedToken(header).Some?
    requires j.verify(PresentedToken(header).value).Decoded?
    ensures var claim := j.verify(PresentedToken(header).value).claim;
            Protect(Some(header), j, buyers, farmers, LookupFaults(false, false)) == IdentityGone <==>
            || claim.NoClaim?
            || (claim.IdClaim? && (forall k :: 0 <= k < |buyers| ==> buyers[k].id != claim.id)
                               && (forall k :: 0 <= k < |farmers| ==> farmers[k].id != claim.id))
  {
  }

  /** A token issued at login, presented as `Bearer <token>`, attaches the
      identity it was issued for, when identifiers are unique within and
      across the two stores. */
  lemma {:induction false} TokenResolvesToIdentity(j: Jwt, who: Identity, buyers: seq<Buyer>, farmers: seq<Farmer>)
    requires Consistent(j)
    requires BuyerIdsUnique(buyers) && FarmerIdsUnique(farmers) && IdsDisjoint(buyers, farmers)
    requires who.AsBuyer? ==> who.buyer in buyers
    requires who.AsFarmer? ==> who.farmer in farmers
    ensures Protect(Some("Bearer " + j.sign(who.Id())), j, buyers, farmers, LookupFaults(false, false)) == Attached(who)
  {
    var t := j.sign(who.Id());
    var header := "Bearer " + t;
    assert header == "Bearer" + [' '] + t;
    assert header[..|"Bearer"|] == "Bearer";
    assert ' ' !in "Bearer";
    SplitPrefix("Bearer", ' ', t);
    SplitNoSeparator(t, ' ');
    assert PresentedToken(header) == Some(t);
    match who
    case AsBuyer(b) =>
      var i :| 0 <= i < |buyers| && buyers[i] == b;
      BuyerByIdFinds(buyers, i);
    case AsFarmer(f) =>
      var i :| 0 <= i < |farmers| && farmers[i] == f;
      FarmerByIdFinds(farmers, i);
      assert forall k :: 0 <= k < |buyers| ==> buyers[k].id != f.id;
  }

  // ---------------------------------------------------------------------
  // Role gates

  /** A gate either calls `next` or answers 403. */
  datatype GateOutcome = Pass | Forbidden

  /** `farmerOnly`: passes when a user is attached and its `isFarmer` is truthy. */
  function FarmerOnly(user: Option<Identity>): (r: GateOutcome)
    ensures r.Pass? <==> user.Some? && user.value.IsFarmerFlag()
  {
    if user.Some? && user.value.IsFarmerFlag() then Pass else Forbidden
  }

  /** `userOnly`: passes when a user is attached and its `isFarmer` is falsy. */
  function UserOnly(user: Option<Identity>): (r: GateOutcome)
    ensures r.Pass? <==> user.Some? && !user.value.IsFarmerFlag()
  {
    if user.Some? && !user.value.IsFarmerFlag() then Pass else Forbidden
  }

  /** The gates split the attached users between them: no request passes
      both, one with no user passes neither, and one with a user passes
      exactly one. */
  lemma GatesPartition(user: Option<Identity>)
    ensures !(FarmerOnly(user).Pass? && UserOnly(user).Pass?)
    ensures user.None? ==> FarmerOnly(user) == Forbidden && UserOnly(user) == Forbidden
    ensures user.Some? ==> FarmerOnly(user).Pass? != UserOnly(user).Pass?
  {
  }
}

=== FILE: basics.dfy ===
/** Small shared vocabulary: an optional value and the first-match search a
    document store's `findOne` performs over its records in natural order. */
module Basics {

  datatype Option<+T> = None | Some(value: T)

  /** Index of the first element satisfying `p`, if any. */
  function FirstIndex<T>(s: seq<T>, p: T -> bool): (r: Option<nat>)
    ensures r.Some? ==> r.value < |s| && p(s[r.value])
    ensures r.Some? ==> forall j :: 0 <= j < r.value ==> !p(s[j])
    ensures r.None? <==> forall j :: 0 <= j < |s| ==> !p(s[j])
  {
    if |s| == 0 then None
    else if p(s[0]) then Some(0)
    else match FirstIndex(s[1..], p)
      case None => None
      case Some(i) => Some(i + 1)
  }

  /** `findOne(filter)`: the first record the filter accepts, or nothing. */
  function FindOne<T>(s: seq<T>, p: T -> bool): (r: Option<T>)
    ensures r.Some? ==> r.value in s && p(r.value)
    ensures r.None? <==> forall j :: 0 <= j < |s| ==> !p(s[j])
  {
    match FirstIndex(s, p)
    case None => None
    case Some(i) => Some(s[i])
  }

  /** When nothing in `s` matches, `findOne` over `s + [x]` finds `x` exactly when `x` matches. */
  lemma FindOneAppendOne<T>(s: seq<T>, x: T, p: T -> bool)
    requires forall j :: 0 <= j < |s| ==> !p(s[j])
    ensures p(x) ==> FindOne(s + [x], p) == Some(x)
    ensures !p(x) ==> FindOne(s + [x], p) == None
  {
    var k := FirstIndex(s + [x], p);
    assert (s + [x])[|s|] == x;
    assert forall j :: 0 <= j < |s| ==> (s + [x])[j] == s[j];
  }

  /** Sequences on which a predicate agrees pointwise have the same first match. */
  lemma {:induction false} FirstIndexAgree<T>(s: seq<T>, t: seq<T>, p: T -> bool)
    requires |s| == |t|
    requires forall j :: 0 <= j < |s| ==> p(s[j]) == p(t[j])
    ensures FirstIndex(s, p) == FirstIndex(t, p)
    decreases |s|
  {
    if |s| > 0 {
      assert forall j :: 0 <= j < |s| - 1 ==> s[1..][j] == s[j + 1] && t[1..][j] == t[j + 1];
      FirstIndexAgree(s[1..], t[1..], p);
    }
  }
}

=== FILE: crypto.dfy ===
/** The password hashing library as an uninterpreted pair of operations.
    Salting and the cost factor are folded into `hash`; `compare` is the
    library's check of a plaintext against a stored hash. */
module Crypto {
  import opened Basics
  import opened JsValues

  datatype Crypto = Crypto(hash: string -> string, compare: (string, string) -> bool)

  /** The one property the model assumes of the library: a password matches
      its own hash. */
  ghost predicate Sound(c: Crypto) {
    forall p :: c.compare(p, c.hash(p))
  }

  /** `compare(entered, stored)`: the library rejects a non-string
      plaintext with an "Illegal arguments" error, modelled as `None`. */
  function Compare(c: Crypto, entered: Js, stored: string): (r: Option<bool>)
    ensures r.None? <==> !entered.Str?
    ensures r.Some? ==> (r.value <==> c.compare(entered.s, stored))
  {
    if entered.Str? then Some(c.compare(entered.s, stored)) else None
  }
}

=== FILE: email_pattern.dfy ===
/** The e-mail address check of buyer registration, the regular expression
    `^[a-zA-Z0-9._%+-]+@[a-zA-Z0-9.-]+\.[a-zA-Z]{2,}$`, written twice: as the
    set of strings the expression denotes, and as the scan a program would
    run; the two are proved to agree. */
module EmailPattern {
  import opened Basics

  predicate IsLetter(c: char) {
    'a' <= c <= 'z' || 'A' <= c <= 'Z'
  }

  /** `[a-zA-Z0-9._%+-]` */
  predicate IsLocalChar(c: char) {
    IsLetter(c) || '0' <= c <= '9' || c == '.' || c == '_' || c == '%' || c == '+' || c == '-'
  }

  /** `[a-zA-Z0-9.-]` */
  predicate IsDomainChar(c: char) {
    IsLetter(c) || '0' <= c <= '9' || c == '.' || c == '-'
  }

  /** `s` reads as local part `s[..at]`, `@`, domain `s[at+1..dot]`, `.`,
      and top-level part `s[dot+1..]`, each part matching its class. */
  ghost predicate SplitsAt(s: string, at: int, dot: int) {
    && 0 < at && at + 2 <= dot && dot + 3 <= |s|
    && s[at] == '@' && s[dot] == '.'
    && (forall i :: 0 <= i < at ==> IsLocalChar(s[i]))
    && (forall i :: at < i < dot ==> IsDomainChar(s[i]))
    && (forall i :: dot < i < |s| ==> IsLetter(s[i]))
  }

  /** The strings the regular expression matches. */
  ghost predicate MatchesPattern(s: string) {
    exists at, dot :: SplitsAt(s, at, dot)
  }

  // ---------------------------------------------------------------------
  // The scan

  function IndexOf(s: string, c: char): (r: Option<nat>)
    ensures r.Some? ==> r.value < |s| && s[r.value] == c && forall j :: 0 <= j < r.value ==> s[j] != c
    ensures r.None? ==> forall j :: 0 <= j < |s| ==> s[j] != c
  {
    FirstIndex(s, (x: char) => x == c)
  }

  function LastIndexOf(s: string, c: char): (r: Option<nat>)
    ensures r.Some? ==> r.value < |s| && s[r.value] == c && forall j :: r.value < j < |s| ==> s[j] != c
    ensures r.None? ==> forall j :: 0 <= j < |s| ==> s[j] != c
    decreases |s|
  {
    if |s| == 0 then None
    else if s[|s| - 1] == c then Some(|s| - 1)
    else LastIndexOf(s[..|s| - 1], c)
  }

  predicate AllLocal(s: string) {
    forall i :: 0 <= i < |s| ==> IsLocalChar(s[i])
  }

  predicate AllDomain(s: string) {
    forall i :: 0 <= i < |s| ==> IsDomainChar(s[i])
  }

  predicate AllLetters(s: string) {
    forall i :: 0 <= i < |s| ==> IsLetter(s[i])
  }

  /** The scan: the local part runs up to the first `@`; in the rest, the
      last `.` separates the domain from the top-level part. */
  predicate IsEmail(s: string) {
    match IndexOf(s, '@')
    case None => false
    case Some(at) =>
      var rest := s[at + 1..];
      match LastIndexOf(rest, '.')
      case None => false
      case Some(d) =>
        && at > 0 && d >= 1 && |rest| - d - 1 >= 2
        && AllLocal(s[..at]) && AllDomain(rest[..d]) && AllLetters(rest[d + 1..])
  }

  /** The scan accepts exactly the strings the regular expression matches. */
  lemma IsEmailIffMatchesPattern(s: string)
    ensures IsEmail(s) <==> MatchesPattern(s)
  {
    if IsEmail(s) {
      var at := IndexOf(s, '@').value;
      var rest := s[at + 1..];
      var d := LastIndexOf(rest, '.').value;
      var dot := at + 1 + d;
      forall i | at < i < dot ensures IsDomainChar(s[i]) {
        assert s[i] == rest[..d][i - at - 1];
      }
      forall i | dot < i < |s| ensures IsLetter(s[i]) {
        assert s[i] == rest[d + 1..][i - dot - 1];
      }
      forall i | 0 <= i < at ensures IsLocalChar(s[i]) {
        assert s[i] == s[..at][i];
      }
      assert SplitsAt(s, at, dot);
    }
    if MatchesPattern(s) {
      var at, dot :| SplitsAt(s, at, dot);
      PatternDeterminesScan(s, at, dot);
    }
  }

  /** Given a match of the pattern, the scan finds the same `@` and `.`. */
  lemma PatternDeterminesScan(s: string, at: int, dot: int)
    requires SplitsAt(s, at, dot)
    ensures IsEmail(s)
  {
    var ai := IndexOf(s, '@');
    assert ai.Some?;
    assert ai.value == at;
    var rest := s[at + 1..];
    var d := dot - at - 1;
    assert rest[d] == '.';
    var li := LastIndexOf(rest, '.');
    assert li.Some?;
    assert li.value == d;
    assert AllLocal(s[..at]);
    assert AllDomain(rest[..d]) by {
      forall i | 0 <= i < d ensures IsDomainChar(rest[..d][i]) {
        assert rest[..d][i] == s[at + 1 + i];
      }
    }
    var tld := rest[d + 1..];
    assert AllLetters(tld) by {
      forall i | 0 <= i < |tld| ensures IsLetter(tld[i]) {
        assert tld[i] == s[dot + 1 + i];
      }
    }
  }

  /** Every address the pattern matches contains `@`, so a login with it is
      looked up by e-mail. */
  lemma EmailContainsAt(s: string)
    requires MatchesPattern(s)
    ensures '@' in s
  {
    var at, dot :| SplitsAt(s, at, dot);
    assert s[at] == '@';
  }

  /** An accepted address starts with a local-part character and ends with
      a letter, so it has no whitespace to trim at either end. */
  lemma EmailEnds(s: string)
    requires IsEmail(s)
    ensures |s| >= 6 && IsLocalChar(s[0]) && IsLetter(s[|s| - 1])
  {
    IsEmailIffMatchesPattern(s);
    var at, dot :| SplitsAt(s, at, dot);
  }
}

=== FILE: farmer_controllers.dfy ===
/** The farmer controllers: farmer registration, posting a product, and the
    two product listings. */
module FarmerControllers {
  import opened Basics
  import opened JsStrings
  import opened JsValues
  import opened Records
  import opened Crypto
  import opened FarmerModel

  // ---------------------------------------------------------------------
  // registerFarmer

  /** `findOne({ email })` on the farmer store: the query value is cast to a
      string like the field; `null` matches no stored farmer (every farmer
      has an e-mail), and `undefined` is left to the store. */
  predicate EmailQueryMatches(q: QuerySemantics, f: Farmer, email: Js) {
    match CastString(email)
    case Some(s) => f.email == s
    case None => email.Undefined? && q.undefinedQuery.MatchesAnything?
  }

  /** The public fields of a farmer: everything but the password. */
  datatype FarmerView = FarmerView(
    id: Id,
    phoneNumber: string,
    email: string,
    businessCategories: string,
    businessState: string,
    businessLocalGovernmentArea: string,
    businessAddress: string,
    isFarmer: bool)

  function ViewOf(f: Farmer): FarmerView {
    FarmerView(f.id, f.phoneNumber, f.email, f.businessCategories, f.businessState,
               f.businessLocalGovernmentArea, f.businessAddress, f.isFarmer)
  }

  /** Outcomes: 400 "Farmer already exists", an error from `create` (a
      failed cast or `required` check) forwarded to the error handler, and
      201 with the new farmer's public fields. */
  datatype FarmerOutcome = FarmerExists | CreateFailed | FarmerRegistered(view: FarmerView)

  datatype FarmerResult = FarmerResult(outcome: FarmerOutcome, farmers: seq<Farmer>)

  /** `registerFarmer`: the duplicate check looks at the e-mail only, then
      `create` casts and checks the fields and the pre-save hook hashes the
      new password. */
  function RegisterFarmer(body: FarmerBody, farmers: seq<Farmer>, freshId: Id, q: QuerySemantics, c: Crypto): (r: FarmerResult)
    ensures r.outcome == FarmerExists <==> exists k :: 0 <= k < |farmers| && EmailQueryMatches(q, farmers[k], body.email)
    ensures !r.outcome.FarmerRegistered? ==> r.farmers == farmers
    ensures r.outcome.FarmerRegistered? <==>
      (forall k :: 0 <= k < |farmers| ==> !EmailQueryMatches(q, farmers[k], body.email))
      && BuildFarmer(freshId, body).Some?
    ensures r.outcome.FarmerRegistered? ==>
      && BuildFarmer(freshId, body).Some?
      && var built := BuildFarmer(freshId, body).value;
         var f := built.(password := c.hash(built.password));
         r.farmers == farmers + [f] && r.outcome.view == ViewOf(f)
  {
    if FindOne(farmers, (f: Farmer) => EmailQueryMatches(q, f, body.email)).Some? then FarmerResult(FarmerExists, farmers)
    else match BuildFarmer(freshId, body)
      case None => FarmerResult(CreateFailed, farmers)
      case Some(f) =>
        var saved := PreSave(f, true, c);
        FarmerResult(FarmerRegistered(ViewOf(saved)), farmers + [saved])
  }

  /** Registration keeps the farmer store valid: the new farmer is well
      formed, its identifier is fresh, and no stored farmer has its e-mail. */
  lemma RegisterFarmerKeepsStoreValid(body: FarmerBody, farmers: seq<Farmer>, freshId: Id, q: QuerySemantics, c: Crypto)
    requires ValidStore(farmers)
    requires forall k :: 0 <= k < |farmers| ==> farmers[k].id != freshId
    requires forall p :: c.hash(p) != ""
    ensures ValidStore(RegisterFarmer(body, farmers, freshId, q, c).farmers)
  {
    var r := RegisterFarmer(body, farmers, freshId, q, c);
    if r.outcome.FarmerRegistered? {
      var f := r.farmers[|farmers|];
      assert f.email == BuildFarmer(freshId, body).value.email;
      forall k | 0 <= k < |farmers| ensures farmers[k].email != f.email {
        assert !EmailQueryMatches(q, farmers[k], body.email);
      }
    }
  }

  /** The phone number plays no part in the duplicate check: two farmers
      may register with the same phone number. */
  lemma SamePhoneRegistersTwice(body: FarmerBody, other: Farmer, freshId: Id, q: QuerySemantics, c: Crypto)
    requires BuildFarmer(freshId, body).Some?
    requires Some(other.phoneNumber) == CastString(body.phoneNumber)
    requires Some(other.email) != CastString(body.email)
    ensures RegisterFarmer(body, [other], freshId, q, c).outcome.FarmerRegistered?
  {
  }

  // ---------------------------------------------------------------------
  // postProduct

  /** The range of a JavaScript date, in days either side of the epoch. */
  const MaxDay: int := 100_000_000

  /** The two words `const [value, unit] = s.split(' ')` binds; `unit` is
      `undefined` when there is no space. */
  function ValueAndUnit(s: string): (r: (string, Option<string>))
    ensures r.1.None? <==> ' ' !in s
    ensures ' ' !in r.0 && (r.1.Some? ==> ' ' !in r.1.value)
    ensures r.1.None? ==> r.0 == s
    ensures r.1.Some? ==> exists b :: SecondSegment(s, r.0, r.1.value, b)
  {
    var pieces := Split(s, ' ');
    SplitManyIff(s, ' ');
    if |pieces| >= 2 then
      SecondPieceIsSecondSegment(s);
      (pieces[0], Some(pieces[1]))
    else
      SplitNoSeparator(s, ' ');
      (pieces[0], None)
  }

  /** The bid end date `postProduct` derives from `bidPeriod`: none for a
      non-string; for a string, today, moved on by `parseInt(value)` days
      when the unit is `days`. A `NaN` count, or a date outside the range of
      a JavaScript date, gives an invalid date. */
  function BidEndDate(bidPeriod: Js, now: int): (r: DateVal)
    requires -MaxDay <= now <= MaxDay
    ensures r == NoDate <==> !bidPeriod.Str?
    ensures bidPeriod.Str? && ValueAndUnit(bidPeriod.s).1 != Some("days") ==> r == Day(now)
    ensures r.Day? ==> -MaxDay <= r.day <= MaxDay
    ensures r.Day? && ValueAndUnit(bidPeriod.s).1 == Some("days") ==>
      ParseInt(ValueAndUnit(bidPeriod.s).0) == Some(r.day - now)
    ensures r == InvalidDate ==> ValueAndUnit(bidPeriod.s).1 == Some("days")
    ensures bidPeriod.Str? && ValueAndUnit(bidPeriod.s).1 == Some("days") ==>
      var n := ParseInt(ValueAndUnit(bidPeriod.s).0);
      && (n.None? ==> r == InvalidDate)
      && (n.Some? && -MaxDay <= now + n.value <= MaxDay ==> r == Day(now + n.value))
  {
    if !bidPeriod.Str? then NoDate
    else
      var (value, unit) := ValueAndUnit(bidPeriod.s);
      if unit != Some("days") then Day(now)
      else match ParseInt(value)
        case None => InvalidDate
        case Some(n) => if -MaxDay <= now + n <= MaxDay then Day(now + n) else InvalidDate
  }

  /** `"<n> days"` ends the bid `n` days from today, for any `n` that keeps
      the date in range. */
  lemma BidPeriodInDays(n: int, now: int)
    requires -MaxDay <= now <= MaxDay && -MaxDay <= now + n <= MaxDay
    ensures BidEndDate(Str(IntToString(n) + " days"), now) == Day(now + n)
  {
    NoSpaceInIntToString(n);
    ValueAndUnitOfDays(IntToString(n));
    ParseIntOfIntToString(n);
  }

  /** A space-free count followed by ` days` splits into that count and `days`. */
  lemma ValueAndUnitOfDays(v: string)
    requires ' ' !in v
    ensures ValueAndUnit(v + " days") == (v, Some("days"))
  {
    assert v + " days" == v + [' '] + "days";
    SplitPrefix(v, ' ', "days");
    SplitNoSeparator("days", ' ');
  }

  lemma NoSpaceInIntToString(n: int)
    ensures ' ' !in IntToString(n)
  {
    var m: nat := if n < 0 then -n else n;
    var d := NatToString(m);
    assert forall i :: 0 <= i < |d| ==> IsDigit(d[i]);
    if n < 0 {
      assert IntToString(n) == "-" + d;
      assert forall i :: 0 <= i < |"-" + d| ==> ("-" + d)[i] == '-' || IsDigit(("-" + d)[i]);
    }
  }

  /** The fields of a product request. */
  datatype ProductBody = ProductBody(produceType: Js, category: Js, quantity: Js, location: Js, bidPrice: Js, bidPeriod: Js)

  /** Outcomes: 401 when the requester is not a stored farmer, 201 with the
      new product. */
  datatype PostOutcome = FarmerNotAuthorized | Posted(product: Product)

  datatype PostResult = PostResult(outcome: PostOutcome, products: seq<Product>)

  /** `postProduct` for the attached identity. The product schema's casts
      and `required` checks are not part of this model. */
  function PostProduct(requester: Identity, body: ProductBody, farmers: seq<Farmer>, products: seq<Product>, freshId: Id, now: int): (r: PostResult)
    requires -MaxDay <= now <= MaxDay
    ensures r.outcome.FarmerNotAuthorized? <==> FarmerById(farmers, requester.Id()).None?
    ensures r.outcome.FarmerNotAuthorized? ==> r.products == products
    ensures r.outcome.Posted? ==>
      var p := r.outcome.product;
      && r.products == products + [p]
      && p.id == freshId && p.farmer == requester.Id()
      && p.produceType == body.produceType && p.category == body.category && p.quantity == body.quantity
      && p.location == body.location && p.bidPrice == body.bidPrice
      && p.bidPeriod == BidEndDate(body.bidPeriod, now)
  {
    if FarmerById(farmers, requester.Id()).None? then PostResult(FarmerNotAuthorized, products)
    else
      var p := Product(freshId, requester.Id(), body.produceType, body.category, body.quantity, body.location,
                       body.bidPrice, BidEndDate(body.bidPeriod, now), Undefined, Undefined, Undefined, Undefined, Undefined);
      PostResult(Posted(p), products + [p])
  }

  // ---------------------------------------------------------------------
  // Listings

  /** The fields the listings select. */
  datatype ProductSummary = ProductSummary(id: Id, produceType: Js, location: Js, quantity: Js, bidPrice: Js, bidPeriod: DateVal)

  function SummaryOf(p: Product): ProductSummary {
    ProductSummary(p.id, p.produceType, p.location, p.quantity, p.bidPrice, p.bidPeriod)
  }

  function Summaries(ps: seq<Product>): (r: seq<ProductSummary>)
    ensures |r| == |ps| && forall i :: 0 <= i < |ps| ==> r[i] == SummaryOf(ps[i])
  {
    seq(|ps|, i requires 0 <= i < |ps| => SummaryOf(ps[i]))
  }

  datatype ListOutcome = NoProducts | Listed(items: seq<ProductSummary>)

  /** `getAllProducts`: 404 exactly when there is no product, else every product. */
  function GetAllProducts(products: seq<Product>): (r: ListOutcome)
    ensures r.NoProducts? <==> |products| == 0
    ensures r.Listed? ==> r.items == Summaries(products)
  {
    if |products| > 0 then Listed(Summaries(products)) else NoProducts
  }

  /** The products of one farmer, in store order. */
  function OwnedBy(products: seq<Product>, id: Id): (r: seq<Product>)
    ensures forall p :: p in r ==> p in products && p.farmer == id
    ensures forall p :: p in products && p.farmer == id ==> p in r
    ensures |r| <= |products|
    decreases |products|
  {
    if |products| == 0 then []
    else
      var last := products[|products| - 1];
      OwnedBy(products[..|products| - 1], id) + (if last.farmer == id then [last] else [])
  }

  datatype FarmerListOutcome = ListerNotAuthorized | FarmerListed(list: ListOutcome)

  /** `getFarmerProducts`: 401 when the requester is not a stored farmer;
      otherwise exactly the products it posted, and 404 when there are none. */
  function GetFarmerProducts(requester: Identity, farmers: seq<Farmer>, products: seq<Product>): (r: FarmerListOutcome)
    ensures r.ListerNotAuthorized? <==> FarmerById(farmers, requester.Id()).None?
    ensures r.FarmerListed? ==>
      (r.list.NoProducts? <==> forall k :: 0 <= k < |products| ==> products[k].farmer != requester.Id())
    ensures r.FarmerListed? && r.list.Listed? ==> r.list.items == Summaries(OwnedBy(products, requester.Id()))
  {
    if FarmerById(farmers, requester.Id()).None? then ListerNotAuthorized
    else
      var owned := OwnedBy(products, requester.Id());
      if |owned| > 0 then
        assert owned[0] in owned;
        FarmerListed(Listed(Summaries(owned)))
      else
        assert forall k :: 0 <= k < |products| ==> products[k] in products;
        FarmerListed(NoProducts)
  }

  /** Filtering by owner distributes over appending products. */
  lemma {:induction false} OwnedByAppend(products: seq<Product>, p: Product, id: Id)
    ensures OwnedBy(products + [p], id) == OwnedBy(products, id) + (if p.farmer == id then [p] else [])
  {
    assert (products + [p])[..|products|] == products;
  }

  /** A product a farmer has just posted is the last item of that farmer's
      listing, which is therefore not empty. */
  lemma PostedProductIsListed(requester: Identity, body: ProductBody, farmers: seq<Farmer>, products: seq<Product>, freshId: Id, now: int)
    requires -MaxDay <= now <= MaxDay
    requires PostProduct(requester, body, farmers, products, freshId, now).outcome.Posted?
    ensures var r := PostProduct(requester, body, farmers, products, freshId, now);
            var l := GetFarmerProducts(requester, farmers, r.products);
            && l.FarmerListed? && l.list.Listed?
            && l.list.items[|l.list.items| - 1] == SummaryOf(r.outcome.product)
            && GetAllProducts(r.products).Listed?
  {
    var r := PostProduct(requester, body, farmers, products, freshId, now);
    OwnedByAppend(products, r.outcome.product, requester.Id());
  }
}

=== FILE: farmer_model.dfy ===
/** The farmer schema: the casts and `required` checks a new farmer document
    passes through, the pre-save hook that hashes the password, and
    `matchPassword`. */
module FarmerModel {
  import opened Basics
  import opened JsValues
  import opened Records
  import opened Crypto

  /** The fields of a farmer registration request, as sent. */
  datatype FarmerBody = FarmerBody(
    phoneNumber: Js,
    email: Js,
    businessCategories: Js,
    businessState: Js,
    businessLocalGovernmentArea: Js,
    businessAddress: Js,
    password: Js,
    isFarmer: Js)

  /** The required `Boolean` role flag with its default of `true`: an omitted
      value takes the default, `null` fails `required`, and a value the cast
      rejects fails the cast. */
  function RoleFlag(v: Js): (r: Option<bool>)
    ensures v.Undefined? ==> r == Some(true)
    ensures r.None? <==> v.Null? || CastBool(v).BoolUncastable?
    ensures r.Some? && !v.Undefined? ==> CastBool(v) == BoolValue(r.value)
  {
    if v.Undefined? then Some(true)
    else match CastBool(v)
      case BoolValue(b) => Some(b)
      case _ => None
  }

  /** Every required string field of a stored farmer is non-empty. */
  predicate WellFormed(f: Farmer) {
    && f.phoneNumber != "" && f.email != ""
    && f.businessCategories != "" && f.businessState != ""
    && f.businessLocalGovernmentArea != "" && f.businessAddress != ""
    && f.password != ""
  }

  /** The farmer store's invariant: well-formed documents, unique
      identifiers, and the unique index on `email`. */
  predicate ValidStore(farmers: seq<Farmer>) {
    && (forall i :: 0 <= i < |farmers| ==> WellFormed(farmers[i]))
    && FarmerIdsUnique(farmers)
    && (forall i, j :: 0 <= i < j < |farmers| ==> farmers[i].email != farmers[j].email)
  }

  /** The document `Farmer.create` builds from a request before the pre-save
      hook runs (the password is still plain), or `None` when a cast or a
      `required` check fails. */
  function BuildFarmer(id: Id, body: FarmerBody): (r: Option<Farmer>)
    ensures r.Some? <==>
      && RequiredString(body.phoneNumber).Some? && RequiredString(body.email).Some?
      && RequiredString(body.businessCategories).Some? && RequiredString(body.businessState).Some?
      && RequiredString(body.businessLocalGovernmentArea).Some? && RequiredString(body.businessAddress).Some?
      && RequiredString(body.password).Some? && RoleFlag(body.isFarmer).Some?
    ensures r.Some? ==> WellFormed(r.value) && r.value.id == id
    ensures r.Some? ==> Some(r.value.email) == CastString(body.email) && Some(r.value.password) == CastString(body.password)
    ensures r.Some? ==>
      && Some(r.value.phoneNumber) == CastString(body.phoneNumber)
      && Some(r.value.businessCategories) == CastString(body.businessCategories)
      && Some(r.value.businessState) == CastString(body.businessState)
      && Some(r.value.businessLocalGovernmentArea) == CastString(body.businessLocalGovernmentArea)
      && Some(r.value.businessAddress) == CastString(body.businessAddress)
      && Some(r.value.isFarmer) == RoleFlag(body.isFarmer)
    ensures r.Some? && body.isFarmer.Undefined? ==> r.value.isFarmer
  {
    var phone := RequiredString(body.phoneNumber);
    var email := RequiredString(body.email);
    var categories := RequiredString(body.businessCategories);
    var state := RequiredString(body.businessState);
    var lga := RequiredString(body.businessLocalGovernmentArea);
    var address := RequiredString(body.businessAddress);
    var password := RequiredString(body.password);
    var flag := RoleFlag(body.isFarmer);
    if phone.Some? && email.Some? && categories.Some? && state.Some? && lga.Some? && address.Some?
       && password.Some? && flag.Some?
    then Some(Farmer(id, phone.value, email.value, categories.value, state.value, lga.value,
                     address.value, password.value, flag.value))
    else None
  }

  // ---------------------------------------------------------------------
  // The pre-save hook

  /** The hook as written: when the password was not modified it calls
      `next()` but does not return, so it goes on to hash the stored value
      again on every save. */
  function PreSaveAsWritten(f: Farmer, passwordModified: bool, c: Crypto): (r: Farmer)
    ensures r.password == c.hash(f.password)
    ensures r.(password := f.password) == f
  {
    f.(password := c.hash(f.password))
  }

  /** The hook as evidently intended: hash only a modified password. */
  function PreSave(f: Farmer, passwordModified: bool, c: Crypto): (r: Farmer)
    ensures passwordModified ==> r.password == c.hash(f.password)
    ensures !passwordModified ==> r == f
    ensures r.(password := f.password) == f
  {
    if passwordModified then f.(password := c.hash(f.password)) else f
  }

  /** `matchPassword(entered)`: the library's comparison of the entered
      value with the stored hash, and nothing else. */
  function MatchPassword(c: Crypto, f: Farmer, entered: Js): (r: Option<bool>)
    ensures r.None? <==> !entered.Str?
    ensures r.Some? ==> (r.value <==> c.compare(entered.s, f.password))
  {
    Compare(c, entered, f.password)
  }

  /** A new document has a modified password, so both versions of the hook
      hash it exactly once, and the plain password then matches. */
  lemma NewFarmerMatchesPlainPassword(f: Farmer, c: Crypto)
    requires Sound(c)
    ensures PreSaveAsWritten(f, true, c) == PreSave(f, true, c)
    ensures MatchPassword(c, PreSave(f, true, c), Str(f.password)) == Some(true)
  {
  }

  /** One save of a farmer document: the password was either set to a new
      plain value first, which marks it modified, or left alone. */
  datatype Save = Untouched | SetPassword(plain: string)

  /** A sequence of saves, each passing through the intended hook. */
  function SaveAll(f: Farmer, saves: seq<Save>, c: Crypto): (r: Farmer)
    ensures r.(password := f.password) == f
    decreases |saves|
  {
    if |saves| == 0 then f
    else
      var g := SaveAll(f, saves[..|saves| - 1], c);
      match saves[|saves| - 1]
      case Untouched => PreSave(g, false, c)
      case SetPassword(p) => PreSave(g.(password := p), true, c)
  }

  /** Where the password was most recently set in a sequence of saves, if
      anywhere: every later save leaves it alone. */
  function LastSet(saves: seq<Save>): (r: Option<nat>)
    ensures r.Some? ==> r.value < |saves| && saves[r.value].SetPassword?
    ensures r.Some? ==> forall k :: r.value < k < |saves| ==> saves[k].Untouched?
    ensures r.None? <==> forall k :: 0 <= k < |saves| ==> saves[k].Untouched?
    decreases |saves|
  {
    if |saves| == 0 then None
    else if saves[|saves| - 1].SetPassword? then Some(|saves| - 1)
    else
      var init := saves[..|saves| - 1];
      assert forall k :: 0 <= k < |init| ==> init[k] == saves[k];
      LastSet(init)
  }

  /** With the intended hook, whatever mix of password changes and untouched
      saves a farmer goes through, the password set last is the one that
      matches; if none was set, exactly the passwords that matched before
      still match. */
  lemma {:induction false} SavesKeepLastPassword(f: Farmer, saves: seq<Save>, c: Crypto, entered: Js)
    requires Sound(c)
    ensures LastSet(saves).Some? ==>
      var p := saves[LastSet(saves).value].plain;
      SaveAll(f, saves, c).password == c.hash(p) && MatchPassword(c, SaveAll(f, saves, c), Str(p)) == Some(true)
    ensures LastSet(saves).None? ==> SaveAll(f, saves, c) == f
    ensures LastSet(saves).None? ==> MatchPassword(c, SaveAll(f, saves, c), entered) == MatchPassword(c, f, entered)
    decreases |saves|
  {
    if |saves| > 0 {
      var init := saves[..|saves| - 1];
      SavesKeepLastPassword(f, init, c, entered);
    }
  }

  /** A stand-in hashing library: `hash(p)` prefixes `#`, and `compare`
      checks exactly that. It satisfies the one assumed property. */
  function ToyCrypto(): (c: Crypto)
    ensures Sound(c)
  {
    Crypto((p: string) => "#" + p, (p: string, h: string) => h == "#" + p)
  }

  /** The hook as written locks a farmer out: after one save that does not
      touch the password, the password the farmer registered with no longer
      matches. */
  lemma PreSaveAsWrittenLocksOut()
    ensures var c := ToyCrypto();
            var f := PreSave(Farmer(1, "0", "a@b.co", "x", "x", "x", "x", "pw", true), true, c);
            && MatchPassword(c, f, Str("pw")) == Some(true)
            && MatchPassword(c, PreSaveAsWritten(f, false, c), Str("pw")) == Some(false)
  {
    var c := ToyCrypto();
    var f := PreSave(Farmer(1, "0", "a@b.co", "x", "x", "x", "x", "pw", true), true, c);
    assert f.password == "#pw";
    assert PreSaveAsWritten(f, false, c).password == "##pw";
  }
}

=== FILE: flows.dfy ===
/** How the pieces meet on a request path: a login token presented to
    `protect`, a farmer registered and then logging in, and the role gates
    read against the store each controller consults. */
module Flows {
  import opened Basics
  import opened JsValues
  import opened Records
  import opened Crypto
  import opened Session
  import opened FarmerModel
  import opened Login
  import opened AuthMiddleware
  import opened Profile
  import opened FarmerControllers

  /** The token a successful login returns, sent back as `Bearer <token>`,
      makes `protect` attach the identity that logged in. */
  lemma LoginThenProtect(credential: Js, password: Js, buyers: seq<Buyer>, farmers: seq<Farmer>, c: Crypto, j: Jwt)
    requires Consistent(j)
    requires BuyerIdsUnique(buyers) && FarmerIdsUnique(farmers) && IdsDisjoint(buyers, farmers)
    requires Login.Login(credential, password, buyers, farmers, c, j).outcome.LoggedIn?
    ensures var o := Login.Login(credential, password, buyers, farmers, c, j).outcome;
            Protect(Some("Bearer " + o.token), j, buyers, farmers, LookupFaults(false, false)) == Attached(o.who)
  {
    var o := Login.Login(credential, password, buyers, farmers, c, j).outcome;
    assert o.token == j.sign(o.who.Id());
    TokenResolvesToIdentity(j, o.who, buyers, farmers);
  }

  /** A farmer who registers with an address no buyer holds can log in with
      that address and the password it registered with, and is reported as
      a farmer. */
  lemma FarmerRegisterThenLogin(body: FarmerBody, farmers: seq<Farmer>, freshId: Id, q: QuerySemantics,
                                buyers: seq<Buyer>, e: string, pw: string, c: Crypto, j: Jwt)
    requires Sound(c)
    requires body.email == Str(e) && '@' in e && body.password == Str(pw) && pw != ""
    requires forall k :: 0 <= k < |buyers| ==> buyers[k].email != Str(e)
    requires RegisterFarmer(body, farmers, freshId, q, c).outcome.FarmerRegistered?
    ensures var r := RegisterFarmer(body, farmers, freshId, q, c);
            var f := r.farmers[|farmers|];
            Login.Login(Str(e), Str(pw), buyers, r.farmers, c, j).outcome == LoggedIn(AsFarmer(f), Bool(true), j.sign(freshId))
  {
    var r := RegisterFarmer(body, farmers, freshId, q, c);
    var f := r.farmers[|farmers|];
    assert r.farmers == farmers + [f];
    assert f.email == e && f.password == c.hash(pw) && f.id == freshId;
    forall k | 0 <= k < |farmers| ensures !FarmerKeyMatches(farmers[k], e) {
      assert !EmailQueryMatches(q, farmers[k], body.email);
    }
    assert FindOne(buyers, (b: Buyer) => BuyerKeyMatches(b, e)).None?;
    FindOneAppendOne(farmers, f, (g: Farmer) => FarmerKeyMatches(g, e));
  }

  /** A buyer who registered with a truthy `isFarmer` passes `farmerOnly`,
      yet `postProduct` turns it away, because it looks the requester up in
      the farmer store only. */
  lemma SelfDeclaredFarmerCannotPost(b: Buyer, buyers: seq<Buyer>, farmers: seq<Farmer>, body: ProductBody,
                                     products: seq<Product>, freshId: Id, now: int)
    requires -MaxDay <= now <= MaxDay
    requires b in buyers && Truthy(b.isFarmer) && IdsDisjoint(buyers, farmers)
    ensures FarmerOnly(Some(AsBuyer(b))) == Pass
    ensures var r := PostProduct(AsBuyer(b), body, farmers, products, freshId, now);
            r.outcome == FarmerNotAuthorized && r.products == products
  {
  }

  /** A farmer whose role flag is false passes `userOnly`, yet a profile
      update finds nothing, because it looks the user up in the buyer store
      only. */
  lemma NonFarmerFlagCannotUpdateProfile(f: Farmer, buyers: seq<Buyer>, farmers: seq<Farmer>, patch: ProfilePatch, c: Crypto)
    requires f in farmers && !f.isFarmer && IdsDisjoint(buyers, farmers)
    ensures UserOnly(Some(AsFarmer(f))) == Pass
    ensures var r := UpdateUserProfile(f.id, patch, buyers, c);
            r.outcome == NotFound && r.buyers == buyers
  {
  }
}

=== FILE: js_strings.dfy ===
/** The string primitives of the JavaScript runtime that the controllers rely
    on: `trim`, `toLowerCase`, `replace(/\D/g, "")`, `split(' ')`,
    `startsWith`, `parseInt` and the conversion of an integer to its decimal
    string. Strings are sequences of characters; `toLowerCase` is modelled for
    the characters whose lower-case form is an ASCII letter: `A`-`Z` and
    U+212A KELVIN SIGN. */
module JsStrings {
  import opened Basics

  // ---------------------------------------------------------------------
  // Character classes

  /** The WhiteSpace and LineTerminator code points of ECMA-262 (sections
      12.2 and 12.3), which `trim` and `parseInt` skip. */
  predicate IsWhitespace(c: char) {
    if c <= ' ' then IsAsciiWhitespace(c) else '\U{00A0}' <= c && IsWideWhitespace(c)
  }

  predicate IsAsciiWhitespace(c: char) {
    c == '\t' || c == '\n' || c == '\U{000B}' || c == '\U{000C}' || c == '\r' || c == ' '
  }

  predicate IsWideWhitespace(c: char) {
    || c == '\U{00A0}' || c == '\U{1680}'
    || ('\U{2000}' <= c <= '\U{200A}')
    || c == '\U{2028}' || c == '\U{2029}' || c == '\U{202F}' || c == '\U{205F}'
    || c == '\U{3000}' || c == '\U{FEFF}'
  }

  /** The regular-expression class `\d`. */
  predicate IsDigit(c: char) {
    '0' <= c <= '9'
  }

  predicate AllDigits(s: string) {
    forall i :: 0 <= i < |s| ==> IsDigit(s[i])
  }

  /** A character `toLowerCase` maps to an ASCII letter other than itself:
      an ASCII capital, or U+212A KELVIN SIGN, which lower-cases to `k`. */
  predicate IsUpper(c: char) {
    'A' <= c <= 'Z' || c == '\U{212A}'
  }

  // ---------------------------------------------------------------------
  // trim

  /** Drops leading whitespace (`trimStart`). */
  function TrimStart(s: string): (r: string)
    ensures |r| <= |s| && r == s[|s| - |r|..]
    ensures forall i :: 0 <= i < |s| - |r| ==> IsWhitespace(s[i])
    ensures |r| > 0 ==> !IsWhitespace(r[0])
  {
    if |s| > 0 && IsWhitespace(s[0]) then TrimStart(s[1..]) else s
  }

  /** Drops trailing whitespace (`trimEnd`). */
  function TrimEnd(s: string): (r: string)
    ensures |r| <= |s| && r == s[..|r|]
    ensures forall i :: |r| <= i < |s| ==> IsWhitespace(s[i])
    ensures |r| > 0 ==> !IsWhitespace(r[|r| - 1])
  {
    if |s| > 0 && IsWhitespace(s[|s| - 1]) then TrimEnd(s[..|s| - 1]) else s
  }

  /** `String.prototype.trim`. */
  function Trim(s: string): string {
    TrimEnd(TrimStart(s))
  }

  /** A string that neither starts nor ends with whitespace. */
  predicate IsTrimmed(s: string) {
    |s| > 0 ==> !IsWhitespace(s[0]) && !IsWhitespace(s[|s| - 1])
  }

  lemma TrimStartOfTrimmed(s: string)
    requires |s| > 0 ==> !IsWhitespace(s[0])
    ensures TrimStart(s) == s
  {
  }

  lemma TrimEndOfTrimmed(s: string)
    requires |s| > 0 ==> !IsWhitespace(s[|s| - 1])
    ensures TrimEnd(s) == s
  {
  }

  /** `trim` leaves no whitespace at either end, and trims nothing from a
      string that has none there: together, `trim` is idempotent. */
  lemma TrimIsTrimmed(s: string)
    ensures IsTrimmed(Trim(s))
    ensures IsTrimmed(s) ==> Trim(s) == s
    ensures Trim(Trim(s)) == Trim(s)
  {
    var t := TrimStart(s);
    var r := TrimEnd(t);
    if |r| > 0 {
      assert r[0] == t[0];
    }
    if IsTrimmed(s) {
      TrimStartOfTrimmed(s);
      TrimEndOfTrimmed(s);
    }
    if |r| > 0 {
      TrimStartOfTrimmed(r);
      TrimEndOfTrimmed(r);
    }
  }

  /** `trim` yields the empty string exactly when every character is whitespace. */
  lemma TrimEmptyIffBlank(s: string)
    ensures Trim(s) == "" <==> forall i :: 0 <= i < |s| ==> IsWhitespace(s[i])
  {
    var t := TrimStart(s);
    if Trim(s) == "" {
      assert |t| == 0;
    } else {
      var r := Trim(s);
      assert !IsWhitespace(r[0]) && r[0] == t[0] == s[|s| - |t|];
    }
  }

  // ---------------------------------------------------------------------
  // toLowerCase

  function LowerChar(c: char): char {
    if 'A' <= c <= 'Z' then (c as int + 32) as char
    else if c == '\U{212A}' then 'k'
    else c
  }

  /** `String.prototype.toLowerCase` for every character that lower-cases
      to an ASCII letter; other characters are kept as they are. */
  function Lower(s: string): (r: string)
    ensures |r| == |s|
    ensures forall i :: 0 <= i < |s| ==> r[i] == LowerChar(s[i])
  {
    seq(|s|, i requires 0 <= i < |s| => LowerChar(s[i]))
  }

  predicate HasNoUpper(s: string) {
    forall i :: 0 <= i < |s| ==> !IsUpper(s[i])
  }

  /** Lowering leaves no upper-case letter, lowering a lower-case string
      changes nothing, and lowering never touches whitespace. */
  lemma LowerFacts(s: string)
    ensures HasNoUpper(Lower(s))
    ensures HasNoUpper(s) ==> Lower(s) == s
    ensures forall i :: 0 <= i < |s| ==> (IsWhitespace(Lower(s)[i]) <==> IsWhitespace(s[i]))
  {
  }

  /** Trimming a string with no upper-case letters leaves none. */
  lemma TrimKeepsNoUpper(s: string)
    requires HasNoUpper(s)
    ensures HasNoUpper(Trim(s))
  {
    var t := TrimStart(s);
    var r := TrimEnd(t);
    forall i | 0 <= i < |r|
      ensures !IsUpper(r[i])
    {
      assert r[i] == t[i] == s[|s| - |t| + i];
    }
  }

  // ---------------------------------------------------------------------
  // replace(/\D/g, "")

  /** Keeps the decimal digits of `s`, in order, and drops everything else. */
  function DigitsOnly(s: string): (r: string)
    ensures AllDigits(r)
    ensures |r| <= |s|
    ensures forall c :: c in r ==> c in s
  {
    if |s| == 0 then ""
    else if IsDigit(s[0]) then [s[0]] + DigitsOnly(s[1..])
    else DigitsOnly(s[1..])
  }

  /** Stripping non-digits distributes over concatenation: each character is
      kept or dropped on its own. */
  lemma {:induction false} DigitsOnlyConcat(a: string, b: string)
    ensures DigitsOnly(a + b) == DigitsOnly(a) + DigitsOnly(b)
    decreases |a|
  {
    if |a| == 0 {
      assert a + b == b;
    } else {
      assert (a + b)[0] == a[0];
      assert (a + b)[1..] == a[1..] + b;
      DigitsOnlyConcat(a[1..], b);
    }
  }

  /** A string of digits is left as it is, and only such a string is. */
  lemma {:induction false} DigitsOnlyFixpoint(s: string)
    ensures DigitsOnly(s) == s <==> AllDigits(s)
    decreases |s|
  {
    if |s| > 0 {
      DigitsOnlyFixpoint(s[1..]);
      if !IsDigit(s[0]) {
        assert |DigitsOnly(s)| < |s|;
      }
    }
  }

  // ---------------------------------------------------------------------
  // split(' ') and join(' ')

  /** `s.split(sep)` for a one-character separator: the pieces between
      separators, including empty ones; never an empty list. */
  function Split(s: string, sep: char): (r: seq<string>)
    ensures |r| >= 1
    ensures forall i :: 0 <= i < |r| ==> sep !in r[i]
    decreases |s|
  {
    if |s| == 0 then [""]
    else
      var rest := Split(s[1..], sep);
      if s[0] == sep then [""] + rest
      else [[s[0]] + rest[0]] + rest[1..]
  }

  /** `pieces.join(sep)`. */
  function Join(pieces: seq<string>, sep: char): string
    requires |pieces| >= 1
    decreases |pieces|
  {
    if |pieces| == 1 then pieces[0] else pieces[0] + [sep] + Join(pieces[1..], sep)
  }

  /** Splitting loses nothing: joining the pieces back gives the input. */
  lemma {:induction false} JoinSplit(s: string, sep: char)
    ensures Join(Split(s, sep), sep) == s
    decreases |s|
  {
    if |s| > 0 {
      var rest := Split(s[1..], sep);
      JoinSplit(s[1..], sep);
      if s[0] == sep {
        assert Split(s, sep)[1..] == rest;
        assert s == [sep] + s[1..];
      } else {
        var r := Split(s, sep);
        if |rest| == 1 {
          assert r == [[s[0]] + rest[0]];
          assert s == [s[0]] + s[1..];
        } else {
          assert r[1..] == rest[1..];
          assert Join(rest, sep) == rest[0] + [sep] + Join(rest[1..], sep);
          assert s == [s[0]] + s[1..];
        }
      }
    }
  }

  /** Splitting a string that does not contain the separator gives it back whole. */
  lemma {:induction false} SplitNoSeparator(s: string, sep: char)
    requires sep !in s
    ensures Split(s, sep) == [s]
    decreases |s|
  {
    if |s| > 0 {
      assert sep !in s[1..] by {
        forall i | 0 <= i < |s[1..]| ensures s[1..][i] != sep {
          assert s[1..][i] == s[i + 1];
        }
      }
      SplitNoSeparator(s[1..], sep);
      assert s == [s[0]] + s[1..];
    }
  }

  /** A string splits into more than one piece exactly when it contains the separator. */
  lemma {:induction false} SplitManyIff(s: string, sep: char)
    ensures |Split(s, sep)| >= 2 <==> sep in s
    decreases |s|
  {
    if |s| > 0 {
      SplitManyIff(s[1..], sep);
      assert s == [s[0]] + s[1..];
    }
  }

  /** Joining pieces that do not contain the separator and splitting again
      gives the same pieces: `split` inverts `join`. */
  lemma {:induction false} SplitJoin(pieces: seq<string>, sep: char)
    requires |pieces| >= 1
    requires forall i :: 0 <= i < |pieces| ==> sep !in pieces[i]
    ensures Split(Join(pieces, sep), sep) == pieces
    decreases |pieces|
  {
    if |pieces| == 1 {
      SplitNoSeparator(pieces[0], sep);
    } else {
      SplitJoin(pieces[1..], sep);
      SplitPrefix(pieces[0], sep, Join(pieces[1..], sep));
      assert pieces == [pieces[0]] + pieces[1..];
    }
  }

  /** Splitting `a + sep + b`, where `a` has no separator, yields `a` followed
      by the pieces of `b`. */
  lemma {:induction false} SplitPrefix(a: string, sep: char, b: string)
    requires sep !in a
    ensures Split(a + [sep] + b, sep) == [a] + Split(b, sep)
    decreases |a|
  {
    var s := a + [sep] + b;
    if |a| == 0 {
      assert s == [sep] + b;
      assert s[1..] == b;
    } else {
      assert s[1..] == a[1..] + [sep] + b;
      assert sep !in a[1..] by {
        forall i | 0 <= i < |a[1..]| ensures a[1..][i] != sep {
          assert a[1..][i] == a[i + 1];
        }
      }
      SplitPrefix(a[1..], sep, b);
      assert s[0] == a[0];
      assert [a[0]] + a[1..] == a;
    }
  }

  /** `header` is `a`, a space, `t`, then `b`, where `a` holds no space and
      `b` is empty or starts with a space: `t` is the second space-separated
      segment. */
  predicate SecondSegment(header: string, a: string, t: string, b: string) {
    ' ' !in a && ' ' !in t && header == a + [' '] + t + b && (|b| == 0 || b[0] == ' ')
  }

  /** The second piece of `split(' ')` sits right after the first space
      and runs up to the next space or the end of the string. */
  lemma SecondPieceIsSecondSegment(header: string)
    requires |Split(header, ' ')| >= 2
    ensures var pieces := Split(header, ' ');
            exists b :: SecondSegment(header, pieces[0], pieces[1], b)
  {
    var pieces := Split(header, ' ');
    JoinSplit(header, ' ');
    var b := if |pieces| == 2 then "" else [' '] + Join(pieces[2..], ' ');
    assert pieces[1..][1..] == pieces[2..];
    assert Join(pieces[1..], ' ') == pieces[1] + b;
    assert SecondSegment(header, pieces[0], pieces[1], b);
  }

  // ---------------------------------------------------------------------
  // startsWith

  predicate StartsWith(s: string, prefix: string) {
    |prefix| <= |s| && s[..|prefix|] == prefix
  }

  // ---------------------------------------------------------------------
  // Integers and their decimal strings

  function DigitChar(d: nat): (c: char)
    requires d < 10
    ensures IsDigit(c)
  {
    ('0' as int + d) as char
  }

  function DigitValue(c: char): nat
    requires IsDigit(c)
  {
    c as int - '0' as int
  }

  /** The decimal string of a natural number, as `String(n)` prints it. */
  function NatToString(n: nat): (r: string)
    ensures |r| >= 1 && AllDigits(r)
    ensures r[0] == '0' ==> n == 0 && |r| == 1
    decreases n
  {
    if n < 10 then [DigitChar(n)] else NatToString(n / 10) + [DigitChar(n % 10)]
  }

  /** `String(n)` for an integer that JavaScript prints without an exponent. */
  function IntToString(n: int): string {
    if n < 0 then "-" + NatToString(-n) else NatToString(n)
  }

  predicate IsRadixDigit(c: char, hex: bool) {
    IsDigit(c) || (hex && ('a' <= c <= 'f' || 'A' <= c <= 'F'))
  }

  function RadixDigitValue(c: char): nat {
    if IsDigit(c) then DigitValue(c)
    else if 'a' <= c <= 'f' then c as int - 'a' as int + 10
    else if 'A' <= c <= 'F' then c as int - 'A' as int + 10
    else 0
  }

  /** The value of a digit string in base 10, or base 16 when `hex`. */
  function RadixValue(s: string, hex: bool): nat
    decreases |s|
  {
    if |s| == 0 then 0
    else RadixValue(s[..|s| - 1], hex) * (if hex then 16 else 10) + RadixDigitValue(s[|s| - 1])
  }

  /** The longest prefix of `s` made of digits of the radix. */
  function RadixPrefix(s: string, hex: bool): (r: string)
    ensures |r| <= |s| && r == s[..|r|]
    ensures forall i :: 0 <= i < |r| ==> IsRadixDigit(r[i], hex)
    ensures |r| < |s| ==> !IsRadixDigit(s[|r|], hex)
    decreases |s|
  {
    if |s| > 0 && IsRadixDigit(s[0], hex) then [s[0]] + RadixPrefix(s[1..], hex) else []
  }

  /** `parseInt(s)` with no radix argument (ECMA-262 section 19.2.5): skip
      leading whitespace, take one optional sign, switch to base 16 after a
      `0x`/`0X` prefix, then read the longest run of digits. `None` stands
      for `NaN`, the result when no digit follows. */
  function ParseInt(s: string): Option<int> {
    ParseSigned(TrimStart(s))
  }

  /** The optional sign `parseInt` accepts: whether it is `-`, and the rest. */
  function SignOf(t: string): (r: (bool, string))
  {
    if |t| > 0 && t[0] == '-' then (true, t[1..])
    else if |t| > 0 && t[0] == '+' then (false, t[1..])
    else (false, t)
  }

  /** The sign step of `parseInt`: a leading `-` negates, a leading `+` is skipped. */
  function ParseSigned(t: string): Option<int> {
    var (negative, u) := SignOf(t);
    match ParseUnsigned(u)
    case None => None
    case Some(v) => Some(if negative then -(v as int) else v as int)
  }

  /** The radix step of `parseInt`: a `0x`/`0X` prefix selects base 16. */
  function ParseUnsigned(u: string): Option<nat> {
    if |u| >= 2 && u[0] == '0' && (u[1] == 'x' || u[1] == 'X') then DigitRun(u[2..], true)
    else DigitRun(u, false)
  }

  /** The value of the longest run of digits at the start of `u`, if any. */
  function DigitRun(u: string, hex: bool): Option<nat> {
    var z := RadixPrefix(u, hex);
    if z == [] then None else Some(RadixValue(z, hex))
  }

  /** Reading back the decimal string of a natural number gives the number. */
  lemma {:induction false} RadixValueOfNatToString(n: nat)
    ensures RadixValue(NatToString(n), false) == n
    decreases n
  {
    if n >= 10 {
      var s := NatToString(n);
      assert s[..|s| - 1] == NatToString(n / 10);
      RadixValueOfNatToString(n / 10);
    }
  }

  lemma RadixPrefixOfDigits(s: string)
    requires AllDigits(s)
    ensures RadixPrefix(s, false) == s
  {
  }

  /** A string that starts with a digit and reads as `v` makes `parseInt` give `v`. */
  lemma ParseIntOfUnsigned(u: string, v: nat)
    requires |u| > 0 && IsDigit(u[0]) && ParseUnsigned(u) == Some(v)
    ensures ParseInt(u) == Some(v as int)
  {
    TrimStartOfTrimmed(u);
  }

  /** A minus sign before a string that reads as `v` makes `parseInt` give `-v`. */
  lemma ParseIntOfNegated(u: string, v: nat)
    requires ParseUnsigned(u) == Some(v)
    ensures ParseInt("-" + u) == Some(-(v as int))
  {
    var s := "-" + u;
    assert s[0] == '-' && s[1..] == u;
    TrimStartOfTrimmed(s);
  }

  /** Without a sign, a decimal string without a superfluous leading zero
      reads as its value. */
  lemma ParseUnsignedOfDecimal(d: string)
    requires |d| >= 1 && AllDigits(d) && (d[0] == '0' ==> |d| == 1)
    ensures ParseUnsigned(d) == Some(RadixValue(d, false))
  {
    RadixPrefixOfDigits(d);
  }

  /** `parseInt` inverts `String` on integers: `parseInt(String(n)) == n`. */
  lemma ParseIntOfIntToString(n: int)
    ensures ParseInt(IntToString(n)) == Some(n)
  {
    var m: nat := if n < 0 then -n else n;
    var d := NatToString(m);
    RadixValueOfNatToString(m);
    ParseUnsignedOfDecimal(d);
    if n < 0 {
      ParseIntOfNegated(d, m);
    } else {
      ParseIntOfUnsigned(d, m);
    }
  }
}

=== FILE: js_values.dfy ===
/** Values as they arrive in a parsed JSON request body, with JavaScript's
    truthiness and the casts the document mapper applies before it stores a
    value in a `String` or `Boolean` field. */
module JsValues {
  import opened Basics
  import opened JsStrings

  /** A request-body field: omitted (`undefined`), sent as `null`, or a JSON
      string, number or boolean. Numbers are integers in this model. */
  datatype Js = Undefined | Null | Str(s: string) | Num(n: int) | Bool(b: bool)

  /** JavaScript truthiness: `undefined`, `null`, `""`, `0` and `false` are falsy. */
  predicate Truthy(v: Js) {
    match v
    case Undefined => false
    case Null => false
    case Str(s) => s != ""
    case Num(n) => n != 0
    case Bool(b) => b
  }

  /** `a || b`: the first operand when it is truthy, else the second. */
  function Or(a: Js, b: Js): Js {
    if Truthy(a) then a else b
  }

  /** The cast a `String` schema field applies: strings stay, numbers and
      booleans become their printed form, `undefined` and `null` stay unset. */
  function CastString(v: Js): (r: Option<string>)
    ensures r.None? <==> v.Undefined? || v.Null?
    ensures v.Str? ==> r == Some(v.s)
    ensures Truthy(v) ==> r.Some? && r.value != ""
    ensures v.Num? ==> r.Some? && ParseInt(r.value) == Some(v.n)
    ensures v.Bool? ==> r == Some(if v.b then "true" else "false")
  {
    match v
    case Undefined => None
    case Null => None
    case Str(s) => Some(s)
    case Num(n) => ParseIntOfIntToString(n); Some(IntToString(n))
    case Bool(b) => Some(if b then "true" else "false")
  }

  /** A required `String` field: the cast value, when it is present and non-empty. */
  function RequiredString(v: Js): (r: Option<string>)
    ensures r.Some? <==> (v.Str? && v.s != "") || v.Num? || v.Bool?
    ensures r.Some? ==> r.value != "" && CastString(v) == r
    ensures v.Str? && r.Some? ==> r.value == v.s
  {
    match CastString(v)
    case None => None
    case Some(s) => if s == "" then None else Some(s)
  }

  /** What a `Boolean` schema field holds after casting. */
  datatype BoolField = BoolValue(b: bool) | BoolUnset | BoolUncastable

  /** The cast a `Boolean` schema field applies: `true`, `'true'`, `1`, `'1'`
      and `'yes'` become true; `false`, `'false'`, `0`, `'0'` and `'no'`
      become false; `undefined` and `null` leave the field unset; anything
      else fails the cast. */
  function CastBool(v: Js): (r: BoolField)
    ensures r.BoolUnset? <==> v.Undefined? || v.Null?
    ensures v.Bool? ==> r == BoolValue(v.b)
    ensures r.BoolValue? && r.b ==> Truthy(v)
    ensures r == BoolValue(true) <==>
      v == Bool(true) || v == Num(1) || v == Str("true") || v == Str("1") || v == Str("yes")
    ensures r == BoolValue(false) <==>
      v == Bool(false) || v == Num(0) || v == Str("false") || v == Str("0") || v == Str("no")
  {
    match v
    case Undefined => BoolUnset
    case Null => BoolUnset
    case Bool(b) => BoolValue(b)
    case Num(n) => if n == 1 then BoolValue(true) else if n == 0 then BoolValue(false) else BoolUncastable
    case Str(s) =>
      if s == "true" || s == "1" || s == "yes" then BoolValue(true)
      else if s == "false" || s == "0" || s == "no" then BoolValue(false)
      else BoolUncastable
  }
}

=== FILE: login.dfy ===
/** Login (`authUserOrFarmer`): one credential, an e-mail address or a phone
    number, resolved against the buyer store first and the farmer store
    second. */
module Login {
  import opened Basics
  import opened JsValues
  import opened Records
  import opened Crypto
  import opened Session
  import opened FarmerModel
  import opened EmailPattern
  import opened Registration

  /** A credential containing `@` is looked up by e-mail, any other by phone
      number. The credential is used as sent: no trimming, lower-casing or
      digit stripping. */
  predicate ByEmail(credential: string) {
    '@' in credential
  }

  predicate BuyerKeyMatches(b: Buyer, credential: string) {
    if ByEmail(credential) then b.email == Str(credential) else b.phoneNumber == Str(credential)
  }

  predicate FarmerKeyMatches(f: Farmer, credential: string) {
    if ByEmail(credential) then f.email == credential else f.phoneNumber == credential
  }

  /** Outcomes: 400 for a missing credential or password, an error
      forwarded to the error handler (a credential that is not a string, or
      a password the hashing library rejects), 401 with one message for every
      kind of failure, and 200 with the identity, the `isFarmer` value the
      response reports, and the session token. */
  datatype LoginOutcome =
    | MissingCredentials
    | LoginThrew
    | Unauthorized
    | LoggedIn(who: Identity, isFarmer: Js, token: string)
  {
    function Status(): int
      requires !LoginThrew?
    {
      match this
      case MissingCredentials => 400
      case Unauthorized => 401
      case LoggedIn(_, _, _) => 200
    }
  }

  /** The outcome and the stores consulted, in order. */
  datatype LoginResult = LoginResult(outcome: LoginOutcome, consulted: seq<StoreKind>)

  /** `authUserOrFarmer`. The buyer schema is not part of this model; a
      buyer's `matchPassword` is taken to be the same library comparison as
      a farmer's. */
  function Login(credential: Js, password: Js, buyers: seq<Buyer>, farmers: seq<Farmer>, c: Crypto, j: Jwt): (r: LoginResult)
    ensures r.outcome == MissingCredentials <==> !Truthy(credential) || !Truthy(password)
    ensures r.consulted == [] <==> !Truthy(credential) || !Truthy(password) || !credential.Str?
    ensures r.consulted == [] || r.consulted == [Buyers] || r.consulted == [Buyers, Farmers]
    ensures r.outcome.Unauthorized? ==> r.consulted == [Buyers, Farmers]
    ensures r.outcome.LoggedIn? && r.outcome.who.AsBuyer? ==>
      var b := r.outcome.who.buyer;
      && credential.Str? && password.Str?
      && b in buyers && BuyerKeyMatches(b, credential.s) && c.compare(password.s, b.password)
      && r.outcome.isFarmer == b.isFarmer && r.outcome.token == j.sign(b.id)
      && r.consulted == [Buyers]
    ensures r.outcome.LoggedIn? && r.outcome.who.AsFarmer? ==>
      var f := r.outcome.who.farmer;
      && credential.Str? && password.Str?
      && f in farmers && FarmerKeyMatches(f, credential.s) && c.compare(password.s, f.password)
      && r.outcome.isFarmer == Bool(true) && r.outcome.token == j.sign(f.id)
      && r.consulted == [Buyers, Farmers]
    ensures Truthy(credential) && !credential.Str? && Truthy(password) ==> r.outcome == LoginThrew
    ensures Truthy(credential) && credential.Str? && Truthy(password) && !password.Str? ==>
      (r.outcome == LoginThrew <==>
         || (exists i :: 0 <= i < |buyers| && BuyerKeyMatches(buyers[i], credential.s))
         || (exists i :: 0 <= i < |farmers| && FarmerKeyMatches(farmers[i], credential.s)))
    ensures Truthy(credential) && credential.Str? && Truthy(password) && !password.Str? ==>
      r.outcome == LoginThrew || r.outcome == Unauthorized
  {
    if !Truthy(credential) || !Truthy(password) then LoginResult(MissingCredentials, [])
    else if !credential.Str? then LoginResult(LoginThrew, [])
    else
      var key := credential.s;
      var buyer := FindOne(buyers, (b: Buyer) => BuyerKeyMatches(b, key));
      var buyerCheck := if buyer.Some? then Compare(c, password, buyer.value.password) else Some(false);
      if buyerCheck.None? then LoginResult(LoginThrew, [Buyers])
      else if buyerCheck.value then
        LoginResult(LoggedIn(AsBuyer(buyer.value), buyer.value.isFarmer, j.sign(buyer.value.id)), [Buyers])
      else
        var farmer := FindOne(farmers, (f: Farmer) => FarmerKeyMatches(f, key));
        var farmerCheck := if farmer.Some? then MatchPassword(c, farmer.value, password) else Some(false);
        if farmerCheck.None? then LoginResult(LoginThrew, [Buyers, Farmers])
        else if farmerCheck.value then
          LoginResult(LoggedIn(AsFarmer(farmer.value), Bool(true), j.sign(farmer.value.id)), [Buyers, Farmers])
        else LoginResult(Unauthorized, [Buyers, Farmers])
  }

  /** Buyer `i` is the first buyer holding the credential, and the password
      matches its hash. */
  ghost predicate AcceptsBuyerAt(buyers: seq<Buyer>, i: int, credential: string, password: string, c: Crypto) {
    && 0 <= i < |buyers| && BuyerKeyMatches(buyers[i], credential)
    && (forall k :: 0 <= k < i ==> !BuyerKeyMatches(buyers[k], credential))
    && c.compare(password, buyers[i].password)
  }

  /** Farmer `i` is the first farmer holding the credential, and the password
      matches its hash. */
  ghost predicate AcceptsFarmerAt(farmers: seq<Farmer>, i: int, credential: string, password: string, c: Crypto) {
    && 0 <= i < |farmers| && FarmerKeyMatches(farmers[i], credential)
    && (forall k :: 0 <= k < i ==> !FarmerKeyMatches(farmers[k], credential))
    && c.compare(password, farmers[i].password)
  }

  /** For a string credential and password, login resolves to a buyer exactly
      when the first buyer holding the credential accepts the password, to a
      farmer exactly when that fails and the first farmer holding it accepts
      it, and to the one 401 otherwise, whatever the reason. */
  lemma {:induction false} LoginResolution(credential: string, password: string, buyers: seq<Buyer>, farmers: seq<Farmer>, c: Crypto, j: Jwt)
    requires credential != "" && password != ""
    ensures var r := Login(Str(credential), Str(password), buyers, farmers, c, j);
            && (r.outcome.LoggedIn? && r.outcome.who.AsBuyer? <==>
                exists i :: AcceptsBuyerAt(buyers, i, credential, password, c))
            && (r.outcome.LoggedIn? && r.outcome.who.AsFarmer? <==>
                (!exists i :: AcceptsBuyerAt(buyers, i, credential, password, c))
                && exists i :: AcceptsFarmerAt(farmers, i, credential, password, c))
            && (r.outcome == Unauthorized <==>
                (!exists i :: AcceptsBuyerAt(buyers, i, credential, password, c))
                && !exists i :: AcceptsFarmerAt(farmers, i, credential, password, c))
  {
    var bp := (b: Buyer) => BuyerKeyMatches(b, credential);
    var fp := (f: Farmer) => FarmerKeyMatches(f, credential);
    BuyerLookupIsFirst(buyers, credential, password, c);
    FarmerLookupIsFirst(farmers, credential, password, c);
  }

  /** The buyer lookup finds an accepting buyer exactly when the first
      buyer holding the credential accepts the password. */
  lemma BuyerLookupIsFirst(buyers: seq<Buyer>, credential: string, password: string, c: Crypto)
    ensures var found := FindOne(buyers, (b: Buyer) => BuyerKeyMatches(b, credential));
            (found.Some? && c.compare(password, found.value.password)) <==>
            exists i :: AcceptsBuyerAt(buyers, i, credential, password, c)
  {
    var p := (b: Buyer) => BuyerKeyMatches(b, credential);
    var k := FirstIndex(buyers, p);
    if k.Some? {
      assert AcceptsBuyerAt(buyers, k.value, credential, password, c) <==> c.compare(password, buyers[k.value].password);
      forall i | AcceptsBuyerAt(buyers, i, credential, password, c) ensures i == k.value {
        assert !(i < k.value) && !(k.value < i);
      }
    }
  }

  /** The farmer lookup finds an accepting farmer exactly when the first
      farmer holding the credential accepts the password. */
  lemma FarmerLookupIsFirst(farmers: seq<Farmer>, credential: string, password: string, c: Crypto)
    ensures var found := FindOne(farmers, (f: Farmer) => FarmerKeyMatches(f, credential));
            (found.Some? && c.compare(password, found.value.password)) <==>
            exists i :: AcceptsFarmerAt(farmers, i, credential, password, c)
  {
    var p := (f: Farmer) => FarmerKeyMatches(f, credential);
    var k := FirstIndex(farmers, p);
    if k.Some? {
      assert AcceptsFarmerAt(farmers, k.value, credential, password, c) <==> c.compare(password, farmers[k.value].password);
      forall i | AcceptsFarmerAt(farmers, i, credential, password, c) ensures i == k.value {
        assert !(i < k.value) && !(k.value < i);
      }
    }
  }

  /** Once a buyer is accepted the farmer store plays no part: the result is
      the same whatever the farmer store holds. */
  lemma BuyerTakesPrecedence(credential: Js, password: Js, buyers: seq<Buyer>, farmers1: seq<Farmer>, farmers2: seq<Farmer>, c: Crypto, j: Jwt)
    requires Login(credential, password, buyers, farmers1, c, j).outcome.LoggedIn?
    requires Login(credential, password, buyers, farmers1, c, j).outcome.who.AsBuyer?
    ensures Login(credential, password, buyers, farmers2, c, j) == Login(credential, password, buyers, farmers1, c, j)
  {
  }

  /** A buyer who has just registered with an address can log in with that
      address and the password they registered with. */
  lemma RegisterThenLogin(body: BuyerBody, buyers: seq<Buyer>, farmers: seq<Farmer>, freshId: Id, q: QuerySemantics, c: Crypto, j: Jwt)
    requires Sound(c)
    requires body.password.Str? && body.password.s != ""
    ensures var r := RegisterUser(body, buyers, freshId, q, c);
            r.outcome.Registered? && r.outcome.user.email.Str? ==>
            var u := r.outcome.user;
            Login(u.email, body.password, r.buyers, farmers, c, j).outcome == LoggedIn(AsBuyer(u), u.isFarmer, j.sign(u.id))
  {
    var r := RegisterUser(body, buyers, freshId, q, c);
    if r.outcome.Registered? && r.outcome.user.email.Str? {
      RegisteredEmailIsNew(body, buyers, freshId, q, c);
      LoginFindsNewBuyer(buyers, r.outcome.user, farmers, r.outcome.user.email.s, body.password.s, c, j);
    }
  }

  /** A registered address contains `@` and no earlier buyer holds it. */
  lemma RegisteredEmailIsNew(body: BuyerBody, buyers: seq<Buyer>, freshId: Id, q: QuerySemantics, c: Crypto)
    ensures var r := RegisterUser(body, buyers, freshId, q, c);
            r.outcome.Registered? && r.outcome.user.email.Str? ==>
            var u := r.outcome.user;
            && '@' in u.email.s
            && forall k :: 0 <= k < |buyers| ==> buyers[k].email != u.email
  {
    var r := RegisterUser(body, buyers, freshId, q, c);
    if r.outcome.Registered? && r.outcome.user.email.Str? {
      var n := Normalize(body.email, body.phoneNumber);
      EmailContainsAt(n.email.s);
      EmailConditionExcludes(q, buyers, n.email, n.phone);
    }
  }

  /** When no buyer matches `$or` conditions that include an e-mail
      condition, no buyer holds that address. */
  lemma EmailConditionExcludes(q: QuerySemantics, buyers: seq<Buyer>, email: Js, phone: Option<string>)
    requires email.Str? && '@' in email.s
    requires forall j :: 0 <= j < |buyers| ==> !MatchesAny(q, buyers[j], Conditions(email, phone))
    ensures forall k :: 0 <= k < |buyers| ==> buyers[k].email != email
  {
    var conds := Conditions(email, phone);
    assert EmailIs(email) in conds;
    forall k | 0 <= k < |buyers| ensures buyers[k].email != email {
      assert !CondMatches(q, buyers[k], EmailIs(email));
    }
  }

  /** Logging in by the address of a buyer appended to a store in which no
      one held that address, with the password whose hash it stores, reaches
      that buyer. */
  lemma LoginFindsNewBuyer(buyers: seq<Buyer>, u: Buyer, farmers: seq<Farmer>, e: string, password: string, c: Crypto, j: Jwt)
    requires Sound(c) && '@' in e && password != ""
    requires u.email == Str(e) && u.password == c.hash(password)
    requires forall k :: 0 <= k < |buyers| ==> buyers[k].email != Str(e)
    ensures Login(Str(e), Str(password), buyers + [u], farmers, c, j).outcome == LoggedIn(AsBuyer(u), u.isFarmer, j.sign(u.id))
  {
    FindOneAppendOne(buyers, u, (b: Buyer) => BuyerKeyMatches(b, e));
  }
}

=== FILE: migration.dfy ===
/** The one-off product migration: each stored product is rewritten on its
    own, moving the bid price to the price, filling the new descriptive
    fields with defaults, and dropping the bidding fields. */
module Migration {
  import opened JsValues
  import opened Records

  /** The rewrite of one product document. */
  function Migrate(p: Product): (r: Product)
    ensures Truthy(p.bidPrice) ==> r.price == p.bidPrice
    ensures !Truthy(p.bidPrice) ==> r.price == p.price
    ensures Truthy(r.produceName)
    ensures Truthy(p.produceName) ==> r.produceName == p.produceName
    ensures !Truthy(p.produceName) && Truthy(p.produceType) ==> r.produceName == p.produceType
    ensures !Truthy(p.produceName) && !Truthy(p.produceType) ==> r.produceName == Str("Unknown Product")
    ensures Truthy(p.description) ==> r.description == p.description
    ensures !Truthy(p.description) ==> r.description == Str("No description available")
    ensures Truthy(p.bulkPrice) ==> r.bulkPrice == p.bulkPrice
    ensures !Truthy(p.bulkPrice) ==> r.bulkPrice == r.price
    ensures Truthy(p.imagePath) ==> r.imagePath == p.imagePath
    ensures !Truthy(p.imagePath) ==> r.imagePath == Null
    ensures r.bidPrice == Undefined && r.bidPeriod == NoDate && r.produceType == Undefined
    ensures r.id == p.id && r.farmer == p.farmer && r.category == p.category
    ensures r.quantity == p.quantity && r.location == p.location
  {
    var price := if Truthy(p.bidPrice) then p.bidPrice else p.price;
    var name := if Truthy(p.produceName) then p.produceName else Or(p.produceType, Str("Unknown Product"));
    var description := if Truthy(p.description) then p.description else Str("No description available");
    var bulkPrice := if Truthy(p.bulkPrice) then p.bulkPrice else price;
    var imagePath := if Truthy(p.imagePath) then p.imagePath else Null;
    p.(price := price, produceName := name, description := description, bulkPrice := bulkPrice,
       imagePath := imagePath, bidPrice := Undefined, bidPeriod := NoDate, produceType := Undefined)
  }

  /** Migrating an already migrated product changes nothing, so running the
      script twice leaves what one run left. */
  lemma MigrateIdempotent(p: Product)
    ensures Migrate(Migrate(p)) == Migrate(p)
  {
  }

  /** The loop: every product is rewritten independently, in store order. */
  function MigrateAll(products: seq<Product>): (r: seq<Product>)
    ensures |r| == |products|
    ensures forall i :: 0 <= i < |products| ==> r[i] == Migrate(products[i])
  {
    seq(|products|, i requires 0 <= i < |products| => Migrate(products[i]))
  }

  /** The migration commutes with adding products: migrating a store with
      more products migrates the old ones exactly as before. */
  lemma MigrateAllAppend(products: seq<Product>, more: seq<Product>)
    ensures MigrateAll(products + more) == MigrateAll(products) + MigrateAll(more)
  {
  }

  /** Running the whole migration twice leaves what one run left. */
  lemma MigrateAllIdempotent(products: seq<Product>)
    ensures MigrateAll(MigrateAll(products)) == MigrateAll(products)
  {
    forall i | 0 <= i < |products| ensures MigrateAll(MigrateAll(products))[i] == MigrateAll(products)[i] {
      MigrateIdempotent(products[i]);
    }
  }
}

=== FILE: prelist.dfy ===
/** The pre-listed product schema: the checks a pre-listing passes before it
    is stored, and the defaults it receives. Values are given after the
    schema's casts; dates are day numbers. */
module PreList {
  import opened Basics
  import opened Records

  /** A field as sent: left out, sent as `null`, or given a value. A
      default applies only to a field left out, and the two differ in how
      they compare. */
  datatype Sent<+T> = Omitted | SentNull | Given(value: T)

  /** A pre-listing as submitted. For the fields that only `required`
      inspects, `None` is a field left out or sent as `null`, which
      `required` refuses alike; `status` and the start date keep the two
      apart. */
  datatype PreListInput = PreListInput(
    name: Option<string>,
    description: Option<string>,
    price: Option<int>,
    category: Option<string>,
    stock: Option<string>,
    status: Sent<string>,
    startHarvestDate: Sent<int>,
    endHarvestDate: Option<int>,
    createdBy: Option<Id>)

  datatype Status = Pending | Approved | Rejected

  /** The schema's `enum` for `status`. */
  function StatusOf(s: string): (r: Option<Status>)
    ensures r.Some? <==> s == "pending" || s == "approved" || s == "rejected"
    ensures r == Some(Pending) <==> s == "pending"
  {
    if s == "pending" then Some(Pending)
    else if s == "approved" then Some(Approved)
    else if s == "rejected" then Some(Rejected)
    else None
  }

  datatype Field = Name | Description | Price | Category | Stock | StartHarvestDate | EndHarvestDate | CreatedBy

  /** A schema check that failed. */
  datatype Violation =
    | Required(field: Field)
    | PriceBelowMinimum
    | StatusNotAllowed
    | EndNotAfterStart

  /** A required string is set and non-empty. */
  predicate Present(s: Option<string>) {
    s.Some? && s.value != ""
  }

  /** Whether required field `f` is missing: unset, or an empty string. */
  predicate Missing(d: PreListInput, f: Field) {
    match f
    case Name => !Present(d.name)
    case Description => !Present(d.description)
    case Price => d.price.None?
    case Category => !Present(d.category)
    case Stock => !Present(d.stock)
    case StartHarvestDate => !d.startHarvestDate.Given?
    case EndHarvestDate => d.endHarvestDate.None?
    case CreatedBy => d.createdBy.None?
  }

  /** The end-date validator's `this.startHarvestDate < value`: a `null`
      start converts to 0, the epoch, and an omitted one to `NaN`, which
      compares false. */
  predicate StartsBefore(start: Sent<int>, end: int) {
    match start
    case Given(s) => s < end
    case SentNull => 0 < end
    case Omitted => false
  }

  /** Whether a check fails. The `min` and `enum` checks look only at a
      given value (the `enum` check lets `null` through); the end-date
      validator runs once `required` has passed on the end date. */
  predicate Violated(d: PreListInput, v: Violation) {
    match v
    case Required(f) => Missing(d, f)
    case PriceBelowMinimum => d.price.Some? && d.price.value < 0
    case StatusNotAllowed => d.status.Given? && StatusOf(d.status.value).None?
    case EndNotAfterStart => d.endHarvestDate.Some? && !StartsBefore(d.startHarvestDate, d.endHarvestDate.value)
  }

  const AllViolations: set<Violation> := {
    Required(Name), Required(Description), Required(Price), Required(Category), Required(Stock),
    Required(StartHarvestDate), Required(EndHarvestDate), Required(CreatedBy),
    PriceBelowMinimum, StatusNotAllowed, EndNotAfterStart }

  /** Every check is among the listed ones. */
  lemma AllViolationsListed(v: Violation)
    ensures v in AllViolations
  {
    match v {
      case Required(f) =>
        match f {
          case Name =>
          case Description =>
          case Price =>
          case Category =>
          case Stock =>
          case StartHarvestDate =>
          case EndHarvestDate =>
          case CreatedBy =>
        }
      case PriceBelowMinimum =>
      case StatusNotAllowed =>
      case EndNotAfterStart =>
    }
  }

  /** The checks a pre-listing fails. */
  function Violations(d: PreListInput): (r: set<Violation>)
    ensures forall v :: v in r <==> Violated(d, v)
  {
    forall v: Violation ensures v in AllViolations {
      AllViolationsListed(v);
    }
    set v | v in AllViolations && Violated(d, v)
  }

  /** A stored pre-listing; a `status` of `None` is a stored `null`. */
  datatype PreListProduct = PreListProduct(
    name: string,
    description: string,
    price: int,
    category: string,
    stock: string,
    status: Option<Status>,
    startHarvestDate: int,
    endHarvestDate: int,
    createdBy: Id,
    createdAt: int,
    updatedAt: int)

  datatype PreListResult = Invalid(violations: set<Violation>) | Stored(doc: PreListProduct)

  /** Validation and defaults: a status left out is `pending` (one sent as
      `null` stays `null`), and both timestamps default to the current day. */
  function CreatePreList(d: PreListInput, now: int): (r: PreListResult)
    ensures r.Invalid? <==> exists v :: Violated(d, v)
    ensures r.Invalid? ==> r.violations == Violations(d)
    ensures r.Stored? ==>
      var p := r.doc;
      && p.price >= 0 && p.startHarvestDate < p.endHarvestDate
      && p.name != "" && p.description != "" && p.category != "" && p.stock != ""
      && (d.status.Omitted? ==> p.status == Some(Pending))
      && (d.status.SentNull? ==> p.status.None?)
      && (d.status.Given? ==> StatusOf(d.status.value) == p.status && p.status.Some?)
      && Some(p.name) == d.name && Some(p.price) == d.price && Some(p.createdBy) == d.createdBy
      && Some(p.description) == d.description && Some(p.category) == d.category && Some(p.stock) == d.stock
      && Given(p.startHarvestDate) == d.startHarvestDate && Some(p.endHarvestDate) == d.endHarvestDate
      && p.createdAt == now && p.updatedAt == now
  {
    var v := Violations(d);
    if v != {} then Invalid(v)
    else
      assert Required(Name) !in v && Required(Description) !in v && Required(Price) !in v;
      assert Required(Category) !in v && Required(Stock) !in v && Required(CreatedBy) !in v;
      assert Required(StartHarvestDate) !in v && Required(EndHarvestDate) !in v;
      assert StatusNotAllowed !in v && PriceBelowMinimum !in v && EndNotAfterStart !in v;
      var status := match d.status
        case Omitted => Some(Pending)
        case SentNull => None
        case Given(s) => StatusOf(s);
      Stored(PreListProduct(d.name.value, d.description.value, d.price.value, d.category.value, d.stock.value,
                            status, d.startHarvestDate.value, d.endHarvestDate.value, d.createdBy.value, now, now))
  }

  /** The schema's rules as one condition: a pre-listing is stored exactly
      when every required field is set, the price is not negative, the status
      is one of the three allowed, and the harvest ends strictly after it
      starts. */
  lemma StoredIff(d: PreListInput, now: int)
    ensures CreatePreList(d, now).Stored? <==>
      && Present(d.name) && Present(d.description) && Present(d.category) && Present(d.stock)
      && d.price.Some? && d.price.value >= 0
      && (d.status.Given? ==> d.status.value in {"pending", "approved", "rejected"})
      && d.startHarvestDate.Given? && d.endHarvestDate.Some? && d.startHarvestDate.value < d.endHarvestDate.value
      && d.createdBy.Some?
  {
    if CreatePreList(d, now).Stored? {
      assert !Violated(d, Required(Name)) && !Violated(d, Required(Description));
      assert !Violated(d, Required(Category)) && !Violated(d, Required(Stock));
      assert !Violated(d, Required(Price)) && !Violated(d, PriceBelowMinimum);
      assert !Violated(d, Required(StartHarvestDate)) && !Violated(d, Required(EndHarvestDate));
      assert !Violated(d, EndNotAfterStart) && !Violated(d, StatusNotAllowed);
      assert !Violated(d, Required(CreatedBy));
    }
  }

  /** A start date sent as `null` fails `required`, but the end-date
      validator reads it as the epoch, so it reports nothing for an end date
      after day 0. */
  lemma NullStartComparesAsEpoch(d: PreListInput)
    requires d.startHarvestDate.SentNull? && d.endHarvestDate.Some?
    ensures Required(StartHarvestDate) in Violations(d)
    ensures EndNotAfterStart in Violations(d) <==> d.endHarvestDate.value <= 0
  {
  }

  /** A status sent as `null` passes the `enum` check and is stored as
      `null`, not as the default. */
  lemma NullStatusIsNotDefaulted(d: PreListInput, now: int)
    requires d.status.SentNull?
    ensures StatusNotAllowed !in Violations(d)
    ensures CreatePreList(d, now).Stored? ==> CreatePreList(d, now).doc.status.None?
  {
  }
}

=== FILE: profile.dfy ===
/** The buyer profile endpoints: `getUserProfile` reads the attached
    identity, and `updateUserProfile` merges a request into the stored buyer,
    each field taking the request's value only when it is truthy. */
module Profile {
  import opened Basics
  import opened JsValues
  import opened Records
  import opened Crypto

  /** The profile fields the response reports. */
  datatype ProfileView = ProfileView(id: Id, firstName: Js, lastName: Js, email: Js, phoneNumber: Js, isFarmer: Js)

  datatype ProfileOutcome = NoUser | Profile(view: ProfileView)
  {
    function Status(): int {
      if NoUser? then 400 else 200
    }
  }

  /** `getUserProfile`: the attached identity's public fields. A farmer has
      no first or last name, and reports its stored flag. */
  function GetUserProfile(user: Option<Identity>): (r: ProfileOutcome)
    ensures r.NoUser? <==> user.None?
    ensures r.Profile? ==> r.view.id == user.value.Id() && (Truthy(r.view.isFarmer) <==> user.value.IsFarmerFlag())
    ensures r.Profile? && user.value.AsBuyer? ==>
      var b := user.value.buyer;
      r.view == ProfileView(b.id, b.firstName, b.lastName, b.email, b.phoneNumber, b.isFarmer)
    ensures r.Profile? && user.value.AsFarmer? ==>
      r.view.firstName == Undefined && r.view.lastName == Undefined
      && r.view.email == Str(user.value.farmer.email) && r.view.phoneNumber == Str(user.value.farmer.phoneNumber)
  {
    match user
    case None => NoUser
    case Some(AsBuyer(b)) => Profile(ProfileView(b.id, b.firstName, b.lastName, b.email, b.phoneNumber, b.isFarmer))
    case Some(AsFarmer(f)) => Profile(ProfileView(f.id, Undefined, Undefined, Str(f.email), Str(f.phoneNumber), Bool(f.isFarmer)))
  }

  /** The fields of a profile update request. */
  datatype ProfilePatch = ProfilePatch(firstName: Js, lastName: Js, phoneNumber: Js, email: Js, password: Js)

  /** The fields the update response reports. */
  datatype UpdatedView = UpdatedView(id: Id, firstName: Js, lastName: Js, phoneNumber: Js, email: Js)

  datatype UpdateOutcome = NotFound | Updated(view: UpdatedView)
  {
    function Status(): int {
      if NotFound? then 404 else 200
    }
  }

  datatype UpdateResult = UpdateResult(outcome: UpdateOutcome, buyers: seq<Buyer>)

  /** The merged buyer: each name, phone and e-mail field takes the patch's
      value when it is truthy; a truthy password is cast to a string and
      hashed on save (the buyer schema is not part of this model); nothing
      else changes. */
  function Merge(b: Buyer, patch: ProfilePatch, c: Crypto): (r: Buyer)
    ensures r.firstName == (if Truthy(patch.firstName) then patch.firstName else b.firstName)
    ensures r.lastName == (if Truthy(patch.lastName) then patch.lastName else b.lastName)
    ensures r.phoneNumber == (if Truthy(patch.phoneNumber) then patch.phoneNumber else b.phoneNumber)
    ensures r.email == (if Truthy(patch.email) then patch.email else b.email)
    ensures !Truthy(patch.password) ==> r.password == b.password
    ensures Truthy(patch.password) ==> r.password == c.hash(CastString(patch.password).value)
    ensures r.id == b.id && r.isFarmer == b.isFarmer
  {
    var password := if Truthy(patch.password) then c.hash(CastString(patch.password).value) else b.password;
    b.(firstName := Or(patch.firstName, b.firstName),
       lastName := Or(patch.lastName, b.lastName),
       phoneNumber := Or(patch.phoneNumber, b.phoneNumber),
       email := Or(patch.email, b.email),
       password := password)
  }

  /** `updateUserProfile` for the attached user's identifier: 404 when no
      buyer has it, otherwise the first buyer with it is replaced in place by
      the merge. */
  function UpdateUserProfile(userId: Id, patch: ProfilePatch, buyers: seq<Buyer>, c: Crypto): (r: UpdateResult)
    ensures r.outcome.NotFound? <==> BuyerById(buyers, userId).None?
    ensures r.outcome.NotFound? ==> r.buyers == buyers
    ensures r.outcome.Updated? ==>
      var b := BuyerById(buyers, userId).value;
      var m := Merge(b, patch, c);
      && r.outcome.view == UpdatedView(m.id, m.firstName, m.lastName, m.phoneNumber, m.email)
      && |r.buyers| == |buyers|
      && (exists i :: 0 <= i < |buyers| && buyers[i] == b && r.buyers == buyers[i := m])
  {
    match FirstIndex(buyers, (b: Buyer) => b.id == userId)
    case None => UpdateResult(NotFound, buyers)
    case Some(i) =>
      var m := Merge(buyers[i], patch, c);
      UpdateResult(Updated(UpdatedView(m.id, m.firstName, m.lastName, m.phoneNumber, m.email)), buyers[i := m])
  }

  /** A patch with no truthy field leaves the stored buyer as it was. */
  lemma EmptyPatchIsNoOp(userId: Id, patch: ProfilePatch, buyers: seq<Buyer>, c: Crypto)
    requires !Truthy(patch.firstName) && !Truthy(patch.lastName) && !Truthy(patch.phoneNumber)
    requires !Truthy(patch.email) && !Truthy(patch.password)
    ensures UpdateUserProfile(userId, patch, buyers, c).buyers == buyers
  {
    var r := UpdateUserProfile(userId, patch, buyers, c);
    if r.outcome.Updated? {
      var b := BuyerById(buyers, userId).value;
      assert Merge(b, patch, c) == b;
    }
  }

  /** Sending the same patch a second time changes nothing further. The
      patch carries no password: the library salts every hash afresh, which
      the deterministic `hash` of this model does not show. */
  lemma UpdateIdempotent(userId: Id, patch: ProfilePatch, buyers: seq<Buyer>, c: Crypto)
    requires !Truthy(patch.password)
    ensures var once := UpdateUserProfile(userId, patch, buyers, c);
            UpdateUserProfile(userId, patch, once.buyers, c) == once
  {
    var once := UpdateUserProfile(userId, patch, buyers, c);
    var p := (b: Buyer) => b.id == userId;
    var k := FirstIndex(buyers, p);
    if k.Some? {
      var i := k.value;
      var m := Merge(buyers[i], patch, c);
      assert Merge(m, patch, c) == m;
      assert forall j :: 0 <= j < |buyers| ==> p(once.buyers[j]) == p(buyers[j]);
      FirstIndexAgree(buyers, once.buyers, p);
    } else {
      assert once.buyers == buyers;
    }
  }
}

=== FILE: records.dfy ===
/** The documents of the three collections the core reads and writes —
    buyers (`User`), farmers (`Farmer`) and products (`Product`) — and the
    abstract store queries the controllers issue against them. A store is the
    sequence of its documents in natural order. */
module Records {
  import opened Basics
  import opened JsValues

  /** A document identifier. Identifiers are opaque and compared for equality only. */
  type Id = nat

  /** A buyer document. The buyer schema is not part of this model, so the
      fields hold whatever the controllers assign; `password` holds the
      stored hash. */
  datatype Buyer = Buyer(
    id: Id,
    firstName: Js,
    lastName: Js,
    email: Js,
    phoneNumber: Js,
    password: string,
    isFarmer: Js)

  /** A farmer document after the schema's casts: every field is a string
      except the role flag. */
  datatype Farmer = Farmer(
    id: Id,
    phoneNumber: string,
    email: string,
    businessCategories: string,
    businessState: string,
    businessLocalGovernmentArea: string,
    businessAddress: string,
    password: string,
    isFarmer: bool)

  /** A date field: unset, an Invalid Date, or a day number. */
  datatype DateVal = NoDate | InvalidDate | Day(day: int)

  /** A product document: the fields the product controllers write, plus the
      fields the migration script introduces. */
  datatype Product = Product(
    id: Id,
    farmer: Id,
    produceType: Js,
    category: Js,
    quantity: Js,
    location: Js,
    bidPrice: Js,
    bidPeriod: DateVal,
    price: Js,
    produceName: Js,
    description: Js,
    bulkPrice: Js,
    imagePath: Js)

  /** The identity a request is resolved to: a record of one of the two stores. */
  datatype Identity = AsBuyer(buyer: Buyer) | AsFarmer(farmer: Farmer) {

    function Id(): Id {
      match this
      case AsBuyer(b) => b.id
      case AsFarmer(f) => f.id
    }

    /** `req.user.isFarmer` read as a condition: the buyer's stored value
        by truthiness, the farmer's stored boolean. */
    predicate IsFarmerFlag() {
      match this
      case AsBuyer(b) => Truthy(b.isFarmer)
      case AsFarmer(f) => f.isFarmer
    }
  }

  /** The two identity stores, named in the trace of lookups an operation makes. */
  datatype StoreKind = Buyers | Farmers

  // ---------------------------------------------------------------------
  // Queries

  /** How the document store answers an equality condition whose value is
      `undefined`: this differs between driver and mapper settings, so the
      model keeps it open. */
  datatype UndefinedQuery = MatchesNothing | MatchesNullOrMissing | MatchesAnything

  /** The store's answer to the two query shapes the controllers can build
      whose meaning depends on driver settings: an equality on `undefined`,
      and a `$or` with no conditions (rejected with an error, or matching
      nothing). */
  datatype QuerySemantics = QuerySemantics(undefinedQuery: UndefinedQuery, emptyOrThrows: bool)

  /** Whether a stored field value satisfies the equality condition `{field: wanted}`.
      A `null` condition matches a null or missing field. */
  predicate FieldMatches(q: QuerySemantics, stored: Js, wanted: Js) {
    match wanted
    case Undefined =>
      (match q.undefinedQuery
       case MatchesNothing => false
       case MatchesNullOrMissing => stored.Undefined? || stored.Null?
       case MatchesAnything => true)
    case Null => stored.Undefined? || stored.Null?
    case _ => stored == wanted
  }

  /** `findById(id)` in the buyer store. */
  function BuyerById(buyers: seq<Buyer>, id: Id): (r: Option<Buyer>)
    ensures r.Some? ==> r.value in buyers && r.value.id == id
    ensures r.None? <==> forall j :: 0 <= j < |buyers| ==> buyers[j].id != id
  {
    FindOne(buyers, (b: Buyer) => b.id == id)
  }

  /** `findById(id)` in the farmer store. */
  function FarmerById(farmers: seq<Farmer>, id: Id): (r: Option<Farmer>)
    ensures r.Some? ==> r.value in farmers && r.value.id == id
    ensures r.None? <==> forall j :: 0 <= j < |farmers| ==> farmers[j].id != id
  {
    FindOne(farmers, (f: Farmer) => f.id == id)
  }

  predicate BuyerIdsUnique(buyers: seq<Buyer>) {
    forall i, j :: 0 <= i < j < |buyers| ==> buyers[i].id != buyers[j].id
  }

  predicate FarmerIdsUnique(farmers: seq<Farmer>) {
    forall i, j :: 0 <= i < j < |farmers| ==> farmers[i].id != farmers[j].id
  }

  /** Document identifiers are unique across collections: no buyer shares an
      identifier with a farmer. */
  predicate IdsDisjoint(buyers: seq<Buyer>, farmers: seq<Farmer>) {
    forall i, j :: 0 <= i < |buyers| && 0 <= j < |farmers| ==> buyers[i].id != farmers[j].id
  }

  /** With unique identifiers, `findById` finds each stored buyer by its identifier. */
  lemma BuyerByIdFinds(buyers: seq<Buyer>, i: nat)
    requires BuyerIdsUnique(buyers) && i < |buyers|
    ensures BuyerById(buyers, buyers[i].id) == Some(buyers[i])
  {
    var k := FirstIndex(buyers, (b: Buyer) => b.id == buyers[i].id);
    assert k.Some? && k.value <= i;
  }

  /** With unique identifiers, `findById` finds each stored farmer by its identifier. */
  lemma FarmerByIdFinds(farmers: seq<Farmer>, i: nat)
    requires FarmerIdsUnique(farmers) && i < |farmers|
    ensures FarmerById(farmers, farmers[i].id) == Some(farmers[i])
  {
    var k := FirstIndex(farmers, (f: Farmer) => f.id == farmers[i].id);
    assert k.Some? && k.value <= i;
  }
}

=== FILE: registration.dfy ===
/** Buyer registration (`registerUser`): the credential normaliser, the
    duplicate lookup it feeds, and the creation of the buyer document. */
module Registration {
  import opened Basics
  import opened JsStrings
  import opened JsValues
  import opened Records
  import opened Crypto
  import opened EmailPattern

  /** Why registration refused the input with status 400. */
  datatype Reason = NoContact | BadPhone | BadEmail

  /** The normaliser's verdict: a 400 refusal, a TypeError (a string method
      called on a number or boolean), or the cleaned e-mail and phone. The
      cleaned e-mail is `undefined` when none was sent (or `null` was sent),
      `null` when a blank one was sent, or the trimmed, lower-cased address. */
  datatype Normalized = Refused(reason: Reason) | NormalizeThrew | Clean(email: Js, phone: Option<string>)

  /** The cleaned e-mail: a blank string becomes `null`, any other string is
      lower-cased and trimmed, and an absent or `null` value reads as `undefined`. */
  function CleanEmail(email: Js): (r: Js)
    requires !email.Num? && !email.Bool?
    ensures r.Undefined? <==> !email.Str?
    ensures r.Null? <==> email.Str? && Trim(email.s) == ""
    ensures r.Str? ==> r.s != "" && r.s == Trim(Lower(email.s)) && IsTrimmed(r.s) && HasNoUpper(r.s)
  {
    match email
    case Str(s) =>
      if Trim(s) == "" then Null
      else
        LowerTrimCommute(s);
        LowerFacts(s);
        TrimKeepsNoUpper(Lower(s));
        TrimIsTrimmed(Lower(s));
        Str(Trim(Lower(s)))
    case _ => Undefined
  }

  /** The Kelvin sign lower-cases to `k`, so an address written with it is
      accepted and stored with a plain `k`. */
  lemma KelvinSignAddress()
    ensures CheckEmail(Str("\U{212A}@xy.co")) == EmailOk(Str("k@xy.co"))
  {
    assert Lower("\U{212A}@xy.co") == "k@xy.co";
    assert SplitsAt("k@xy.co", 1, 4);
    LoweredAddressIsAccepted("\U{212A}@xy.co", "k@xy.co");
  }

  /** A string that lower-cases to an accepted address is accepted as that
      address. */
  lemma LoweredAddressIsAccepted(s: string, e: string)
    requires Lower(s) == e && MatchesPattern(e)
    ensures CheckEmail(Str(s)) == EmailOk(Str(e))
  {
    IsEmailIffMatchesPattern(e);
    CleanEmailOfLowered(s, e);
  }

  lemma CleanEmailOfLowered(s: string, e: string)
    requires Lower(s) == e && IsEmail(e)
    ensures CleanEmail(Str(s)) == Str(e)
  {
    TrimOfAccepted(e);
    EmailEnds(e);
    LowerTrimCommute(s);
  }

  /** Lowering does not move whitespace, so the lowered string trims to the
      empty string exactly when the original does. */
  lemma LowerTrimCommute(s: string)
    ensures Trim(Lower(s)) == "" <==> Trim(s) == ""
  {
    TrimEmptyIffBlank(s);
    TrimEmptyIffBlank(Lower(s));
    LowerFacts(s);
  }

  /** The phone step: a truthy phone must be a string (else `replace`
      throws) whose digits number exactly 11. */
  datatype PhoneStep = PhoneThrew | PhoneBad | PhoneOk(phone: Option<string>)

  function CleanPhone(phone: Js): (r: PhoneStep)
    ensures r.PhoneThrew? <==> Truthy(phone) && !phone.Str?
    ensures r.PhoneBad? <==> phone.Str? && phone.s != "" && |DigitsOnly(phone.s)| != 11
    ensures r.PhoneOk? ==> (r.phone.Some? <==> Truthy(phone))
    ensures r.PhoneOk? && r.phone.Some? ==>
      phone.Str? && r.phone.value == DigitsOnly(phone.s) && |r.phone.value| == 11 && AllDigits(r.phone.value)
  {
    if !Truthy(phone) then PhoneOk(None)
    else if !phone.Str? then PhoneThrew
    else
      var digits := DigitsOnly(phone.s);
      if |digits| != 11 then PhoneBad else PhoneOk(Some(digits))
  }

  /** The e-mail step: a number or boolean makes `trim` throw; a cleaned
      address must match the pattern. */
  datatype EmailStep = EmailThrew | EmailBad | EmailOk(email: Js)

  function CheckEmail(email: Js): (r: EmailStep)
    ensures r.EmailThrew? <==> email.Num? || email.Bool?
    ensures r.EmailBad? <==> email.Str? && Trim(email.s) != "" && !MatchesPattern(Trim(Lower(email.s)))
    ensures r.EmailOk? ==> r.email == CleanEmail(email)
    ensures r.EmailOk? && r.email.Str? ==> MatchesPattern(r.email.s)
  {
    if email.Num? || email.Bool? then EmailThrew
    else
      var cleaned := CleanEmail(email);
      if cleaned.Str? then
        IsEmailIffMatchesPattern(cleaned.s);
        if IsEmail(cleaned.s) then EmailOk(cleaned) else EmailBad
      else
        EmailOk(cleaned)
  }

  /** The credential normaliser: refuse when neither contact is truthy, then
      check the phone, then the e-mail. */
  function Normalize(email: Js, phone: Js): (r: Normalized)
    ensures r == Refused(NoContact) <==> !Truthy(email) && !Truthy(phone)
    ensures r == Refused(BadPhone) <==>
      (Truthy(email) || Truthy(phone)) && phone.Str? && phone.s != "" && |DigitsOnly(phone.s)| != 11
    ensures r.Clean? ==> (r.phone.Some? <==> Truthy(phone))
    ensures r.Clean? && r.phone.Some? ==>
      phone.Str? && r.phone.value == DigitsOnly(phone.s) && |r.phone.value| == 11 && AllDigits(r.phone.value)
    ensures r.Clean? ==> (r.email.Undefined? <==> email.Undefined? || email.Null?)
    ensures r.Clean? && r.email.Null? ==> email.Str? && Trim(email.s) == ""
    ensures r.Clean? && r.email.Str? ==>
      email.Str? && r.email.s == Trim(Lower(email.s)) && MatchesPattern(r.email.s) && HasNoUpper(r.email.s)
    ensures r.Clean? ==> r.email.Undefined? || r.email.Null? || r.email.Str?
    ensures r == Refused(BadEmail) <==>
      && (Truthy(email) || Truthy(phone)) && CleanPhone(phone).PhoneOk?
      && email.Str? && Trim(email.s) != "" && !MatchesPattern(Trim(Lower(email.s)))
    ensures r.NormalizeThrew? <==>
      && (Truthy(email) || Truthy(phone))
      && ((Truthy(phone) && !phone.Str?) || (CleanPhone(phone).PhoneOk? && (email.Num? || email.Bool?)))
  {
    if !Truthy(email) && !Truthy(phone) then Refused(NoContact)
    else
      match CleanPhone(phone)
      case PhoneThrew => NormalizeThrew
      case PhoneBad => Refused(BadPhone)
      case PhoneOk(cleanedPhone) =>
        match CheckEmail(email)
        case EmailThrew => NormalizeThrew
        case EmailBad => Refused(BadEmail)
        case EmailOk(cleanedEmail) => Clean(cleanedEmail, cleanedPhone)
  }

  /** The normaliser is idempotent on its own output: feeding back a cleaned
      address and phone yields them unchanged. */
  lemma {:induction false} NormalizeIdempotent(email: Js, phone: Js)
    ensures var n := Normalize(email, phone);
            n.Clean? && n.email.Str? ==>
            var phone' := if n.phone.Some? then Str(n.phone.value) else Undefined;
            Normalize(n.email, phone') == n
  {
    var n := Normalize(email, phone);
    if n.Clean? && n.email.Str? {
      CleanIsFixed(n.email.s, n.phone);
    }
  }

  /** A cleaned, accepted address and a cleaned phone normalise to themselves. */
  lemma CleanIsFixed(e: string, p: Option<string>)
    requires MatchesPattern(e) && HasNoUpper(e)
    requires p.Some? ==> |p.value| == 11 && AllDigits(p.value)
    ensures Normalize(Str(e), if p.Some? then Str(p.value) else Undefined) == Clean(Str(e), p)
  {
    var phone' := if p.Some? then Str(p.value) else Undefined;
    assert CleanPhone(phone') == PhoneOk(p) by {
      if p.Some? {
        CleanedPhoneIsStable(p.value);
      }
    }
    assert e != "" && CheckEmail(Str(e)) == EmailOk(Str(e)) by {
      CleanedEmailIsStable(e);
    }
    NormalizeOfSteps(Str(e), phone');
  }

  /** The normaliser's result once both steps have passed. */
  lemma NormalizeOfSteps(email: Js, phone: Js)
    ensures (Truthy(email) || Truthy(phone)) && CleanPhone(phone).PhoneOk? && CheckEmail(email).EmailOk? ==>
            Normalize(email, phone) == Clean(CheckEmail(email).email, CleanPhone(phone).phone)
  {
  }

  /** A cleaned phone passes the phone step unchanged. */
  lemma CleanedPhoneIsStable(p: string)
    requires |p| == 11 && AllDigits(p)
    ensures CleanPhone(Str(p)) == PhoneOk(Some(p))
  {
    DigitsOnlyFixpoint(p);
  }

  /** A cleaned, accepted address passes the e-mail step unchanged. */
  lemma CleanedEmailIsStable(e: string)
    requires MatchesPattern(e) && HasNoUpper(e)
    ensures e != "" && CheckEmail(Str(e)) == EmailOk(Str(e))
  {
    IsEmailIffMatchesPattern(e);
    EmailEnds(e);
    assert CleanEmail(Str(e)) == Str(e) by {
      LowerFacts(e);
      TrimOfAccepted(e);
    }
  }

  lemma TrimOfAccepted(e: string)
    requires IsEmail(e)
    ensures Trim(e) == e
  {
    EmailEnds(e);
    TrimIsTrimmed(e);
  }

  // ---------------------------------------------------------------------
  // Duplicate lookup

  /** One condition of the `$or` duplicate query. */
  datatype Cond = EmailIs(email: Js) | PhoneIs(phone: string)

  /** The conditions registration builds: the cleaned e-mail unless it is
      `null` or empty (so an `undefined` one is kept), and the cleaned phone
      when there is one. */
  function Conditions(email: Js, phone: Option<string>): (r: seq<Cond>)
    ensures EmailIs(email) in r <==> email != Null && email != Str("")
    ensures phone.Some? && phone.value != "" ==> PhoneIs(phone.value) in r
    ensures forall c :: c in r ==> c == EmailIs(email) || (phone.Some? && c == PhoneIs(phone.value))
  {
    (if email != Null && email != Str("") then [EmailIs(email)] else [])
    + (if phone.Some? && phone.value != "" then [PhoneIs(phone.value)] else [])
  }

  predicate CondMatches(q: QuerySemantics, b: Buyer, c: Cond) {
    match c
    case EmailIs(e) => FieldMatches(q, b.email, e)
    case PhoneIs(p) => b.phoneNumber == Str(p)
  }

  /** Whether a buyer satisfies `$or: conds`. */
  predicate MatchesAny(q: QuerySemantics, b: Buyer, conds: seq<Cond>) {
    exists c :: c in conds && CondMatches(q, b, c)
  }

  // ---------------------------------------------------------------------
  // registerUser

  /** The fields of a registration request. */
  datatype BuyerBody = BuyerBody(firstName: Js, lastName: Js, email: Js, phoneNumber: Js, password: Js, isFarmer: Js)

  /** Outcomes: 400 with a reason, a TypeError forwarded to the error
      handler, 409, 500 (the store rejected the lookup or the document), and
      201 with the new document. */
  datatype RegisterOutcome =
    | Invalid(reason: Reason)
    | Threw
    | AlreadyExists
    | ServerError
    | Registered(user: Buyer)
  {
    function Status(): int
      requires !Threw?
    {
      match this
      case Invalid(_) => 400
      case AlreadyExists => 409
      case ServerError => 500
      case Registered(_) => 201
    }
  }

  datatype RegisterResult = RegisterResult(outcome: RegisterOutcome, buyers: seq<Buyer>)

  /** `registerUser`. The buyer schema is not part of this model: the new
      document's password is assumed to be a required `String` field (so
      `undefined`, `null` and `""` make `User.create` fail with 500), hashed
      once on save. */
  function RegisterUser(body: BuyerBody, buyers: seq<Buyer>, freshId: Id, q: QuerySemantics, c: Crypto): (r: RegisterResult)
    ensures !r.outcome.Registered? ==> r.buyers == buyers
    ensures r.outcome.Registered? ==> r.buyers == buyers + [r.outcome.user]
    ensures r.outcome.Registered? <==>
      && Normalize(body.email, body.phoneNumber).Clean?
      && var n := Normalize(body.email, body.phoneNumber);
         var conds := Conditions(n.email, n.phone);
         && (|conds| == 0 ==> !q.emptyOrThrows)
         && (forall j :: 0 <= j < |buyers| ==> !MatchesAny(q, buyers[j], conds))
         && RequiredString(body.password).Some?
    ensures r.outcome.AlreadyExists? <==>
      && Normalize(body.email, body.phoneNumber).Clean?
      && var n := Normalize(body.email, body.phoneNumber);
         exists j :: 0 <= j < |buyers| && MatchesAny(q, buyers[j], Conditions(n.email, n.phone))
    ensures r.outcome.ServerError? <==>
      && Normalize(body.email, body.phoneNumber).Clean?
      && var n := Normalize(body.email, body.phoneNumber);
         var conds := Conditions(n.email, n.phone);
         || (|conds| == 0 && q.emptyOrThrows)
         || ((forall j :: 0 <= j < |buyers| ==> !MatchesAny(q, buyers[j], conds)) && RequiredString(body.password).None?)
    ensures r.outcome.Threw? <==> Normalize(body.email, body.phoneNumber).NormalizeThrew?
    ensures r.outcome.Invalid? <==> Normalize(body.email, body.phoneNumber).Refused?
    ensures r.outcome.Invalid? ==> r.outcome.reason == Normalize(body.email, body.phoneNumber).reason
    ensures r.outcome.Registered? ==>
      var u := r.outcome.user;
      var n := Normalize(body.email, body.phoneNumber);
      && u.id == freshId
      && u.email == (if n.email.Str? then n.email else Undefined)
      && u.phoneNumber == (if n.phone.Some? then Str(n.phone.value) else Undefined)
      && u.password == c.hash(RequiredString(body.password).value)
      && u.firstName == body.firstName && u.lastName == body.lastName && u.isFarmer == body.isFarmer
  {
    match Normalize(body.email, body.phoneNumber)
    case Refused(reason) => RegisterResult(Invalid(reason), buyers)
    case NormalizeThrew => RegisterResult(Threw, buyers)
    case Clean(email, phone) => RegisterClean(body, email, phone, buyers, freshId, q, c)
  }

  /** `registerUser` once the contacts are cleaned: the `$or` lookup, then
      `User.create`. */
  function RegisterClean(body: BuyerBody, email: Js, phone: Option<string>, buyers: seq<Buyer>,
                         freshId: Id, q: QuerySemantics, c: Crypto): (r: RegisterResult)
    ensures r.outcome.AlreadyExists? || r.outcome.ServerError? || r.outcome.Registered?
    ensures !r.outcome.Registered? ==> r.buyers == buyers
    ensures r.outcome.AlreadyExists? <==>
      exists j :: 0 <= j < |buyers| && MatchesAny(q, buyers[j], Conditions(email, phone))
    ensures r.outcome.Registered? <==>
      && (|Conditions(email, phone)| == 0 ==> !q.emptyOrThrows)
      && (forall j :: 0 <= j < |buyers| ==> !MatchesAny(q, buyers[j], Conditions(email, phone)))
      && RequiredString(body.password).Some?
    ensures r.outcome.Registered? ==>
      var u := r.outcome.user;
      && r.buyers == buyers + [u]
      && u.id == freshId
      && u.email == (if email.Str? then email else Undefined)
      && u.phoneNumber == (if phone.Some? then Str(phone.value) else Undefined)
      && u.password == c.hash(RequiredString(body.password).value)
      && u.firstName == body.firstName && u.lastName == body.lastName && u.isFarmer == body.isFarmer
  {
    var conds := Conditions(email, phone);
    if |conds| == 0 && q.emptyOrThrows then RegisterResult(ServerError, buyers)
    else if FindOne(buyers, (b: Buyer) => MatchesAny(q, b, conds)).Some? then RegisterResult(AlreadyExists, buyers)
    else if RequiredString(body.password).None? then RegisterResult(ServerError, buyers)
    else
      var u := Buyer(
        freshId, body.firstName, body.lastName,
        if email.Str? then email else Undefined,
        if phone.Some? then Str(phone.value) else Undefined,
        c.hash(RequiredString(body.password).value),
        body.isFarmer);
      RegisterResult(Registered(u), buyers + [u])
  }

  /** Registration refuses an address already held by a buyer: once the
      request normalises to address `e`, any buyer stored with `e` makes it
      409, whatever else the request holds. */
  lemma DuplicateEmailConflicts(body: BuyerBody, buyers: seq<Buyer>, freshId: Id, q: QuerySemantics, c: Crypto, j: nat)
    requires j < |buyers|
    ensures var n := Normalize(body.email, body.phoneNumber);
            n.Clean? && n.email.Str? && buyers[j].email == n.email ==>
            RegisterUser(body, buyers, freshId, q, c).outcome == AlreadyExists
  {
    var n := Normalize(body.email, body.phoneNumber);
    if n.Clean? && n.email.Str? && buyers[j].email == n.email {
      EmailContainsAt(n.email.s);
      HeldEmailIsFound(q, buyers, j, n.email, n.phone);
    }
  }

  /** Registration refuses a phone number already held by a buyer: once the
      request normalises to phone `p`, any buyer stored with `p` makes it
      409, whatever address the request holds. */
  lemma DuplicatePhoneConflicts(body: BuyerBody, buyers: seq<Buyer>, freshId: Id, q: QuerySemantics, c: Crypto, j: nat)
    requires j < |buyers|
    ensures var n := Normalize(body.email, body.phoneNumber);
            n.Clean? && n.phone.Some? && buyers[j].phoneNumber == Str(n.phone.value) ==>
            RegisterUser(body, buyers, freshId, q, c).outcome == AlreadyExists
  {
    var n := Normalize(body.email, body.phoneNumber);
    if n.Clean? && n.phone.Some? && buyers[j].phoneNumber == Str(n.phone.value) {
      HeldPhoneMatches(q, buyers[j], n.email, n.phone.value);
    }
  }

  /** A buyer holding the requested phone satisfies the `$or` conditions. */
  lemma HeldPhoneMatches(q: QuerySemantics, b: Buyer, email: Js, phone: string)
    requires phone != "" && b.phoneNumber == Str(phone)
    ensures MatchesAny(q, b, Conditions(email, Some(phone)))
  {
    assert CondMatches(q, b, PhoneIs(phone));
  }

  /** The `$or` lookup finds a buyer that holds the requested address. */
  lemma HeldEmailIsFound(q: QuerySemantics, buyers: seq<Buyer>, j: nat, email: Js, phone: Option<string>)
    requires email.Str? && email.s != ""
    requires j < |buyers| && buyers[j].email == email
    ensures FindOne(buyers, (b: Buyer) => MatchesAny(q, b, Conditions(email, phone))).Some?
  {
    var conds := Conditions(email, phone);
    assert CondMatches(q, buyers[j], EmailIs(email));
    assert MatchesAny(q, buyers[j], conds);
  }

  // ---------------------------------------------------------------------
  // The two query shapes whose meaning the store decides

  /** A phone-only request builds an `undefined` e-mail condition, so whether
      it collides with an earlier phone-only buyer holding a different phone
      depends on how the store reads `{email: undefined}`. */
  lemma PhoneOnlyRegistrationDependsOnStore(c: Crypto, existingPhone: string, phone: string, password: string)
    requires |phone| == 11 && AllDigits(phone) && existingPhone != phone && password != ""
    ensures var existing := Buyer(1, Undefined, Undefined, Undefined, Str(existingPhone), "", Undefined);
            var body := BuyerBody(Undefined, Undefined, Undefined, Str(phone), Str(password), Undefined);
            && RegisterUser(body, [existing], 2, QuerySemantics(MatchesNullOrMissing, true), c).outcome == AlreadyExists
            && RegisterUser(body, [existing], 2, QuerySemantics(MatchesNothing, true), c).outcome.Registered?
  {
    var existing := Buyer(1, Undefined, Undefined, Undefined, Str(existingPhone), "", Undefined);
    CleanedPhoneIsStable(phone);
    NormalizeOfSteps(Undefined, Str(phone));
    var conds := Conditions(Undefined, Some(phone));
    assert conds == [EmailIs(Undefined), PhoneIs(phone)];
    var loose := QuerySemantics(MatchesNullOrMissing, true);
    var strict := QuerySemantics(MatchesNothing, true);
    assert MatchesAny(loose, existing, conds) by {
      assert CondMatches(loose, existing, EmailIs(Undefined));
    }
    assert FindOne([existing], (b: Buyer) => MatchesAny(loose, b, conds)).Some?;
    assert FindOne([existing], (b: Buyer) => MatchesAny(strict, b, conds)).None?;
  }

  /** A blank e-mail with no phone passes the "either e-mail or phone" guard
      (a blank string is truthy) but builds no condition at all, so the
      outcome is whatever the store does with an empty `$or`. */
  lemma BlankEmailBuildsNoCondition(buyers: seq<Buyer>, c: Crypto, u: UndefinedQuery, blank: string, pw: string, freshId: Id)
    requires blank != "" && forall i :: 0 <= i < |blank| ==> IsWhitespace(blank[i])
    requires pw != ""
    ensures var body := BuyerBody(Undefined, Undefined, Str(blank), Undefined, Str(pw), Undefined);
            && RegisterUser(body, buyers, freshId, QuerySemantics(u, true), c).outcome == ServerError
            && RegisterUser(body, buyers, freshId, QuerySemantics(u, false), c).outcome.Registered?
  {
    BlankEmailIsNull(blank);
    assert Conditions(Null, None) == [];
  }

  /** A blank e-mail alone normalises to a `null` address and no phone. */
  lemma BlankEmailIsNull(blank: string)
    requires blank != "" && forall i :: 0 <= i < |blank| ==> IsWhitespace(blank[i])
    ensures Normalize(Str(blank), Undefined) == Clean(Null, None)
  {
    TrimEmptyIffBlank(blank);
    NormalizeOfSteps(Str(blank), Undefined);
  }
}

=== FILE: session.dfy ===
/** Session tokens. The token library is a pair of uninterpreted operations:
    `sign` issues the token `generateToken` returns for an identifier, and
    `verify` checks a token and decodes its `userId` claim. */
module Session {
  import opened Records

  /** What a decoded token says about its `userId` claim: none, a value that
      is not a valid document identifier, or an identifier. */
  datatype Claim = NoClaim | MalformedClaim | IdClaim(id: Id)

  /** The verifier's answer: the token is rejected (bad signature, expired,
      malformed), or it decodes to a payload. */
  datatype Verified = Rejected | Decoded(claim: Claim)

  datatype Jwt = Jwt(sign: Id -> string, verify: string -> Verified)

  /** What the model assumes of the token library: a token issued for an
      identifier is a non-empty string without spaces that verifies back to
      that identifier. */
  ghost predicate Consistent(j: Jwt) {
    forall id :: j.verify(j.sign(id)) == Decoded(IdClaim(id)) && j.sign(id) != "" && ' ' !in j.sign(id)
  }
}
